=== FILE: README.md ===
# Adaptive arithmetic drill — a verified model of its engine

`back.py` runs one drill session for one learner. All the session state lives in a single
mutable `SESSION` dictionary, and four request handlers act on it:

- **start** (`start_game`) records the player and the duration. It picks a fixed level or
  adaptive mode and resets every counter and log.
- **question** (`generate_question`) makes up to ten attempts to draw a question not asked
  before. Each attempt picks a level (in adaptive mode, `adaptive_difficulty` decides it and it
  is written back) and then a topic. Half the time that is the weakest allowed topic; otherwise
  the topic is chosen at random. The attempt then draws operands from the level's ranges.
- **answer** (`answer`) grades the submission against the stored answer with a tolerance of
  0.05. It updates the per-topic counters, the history, the response times and `prev_wrong`,
  and classifies a wrong answer into an error pattern.
- **result** (`result`) reports:
  - the mistake heatmap;
  - the truncated mastery percentage of every attempted topic;
  - a speed comment, with its two accuracy overrides.

The project is organised as follows:

- `wrappers.dfy` (`Wrappers`): `Option`, standing for absent request fields and dictionary
  entries.
- `curriculum.dfy` (`Curriculum`): the fixed tables, namely:
  - the level order;
  - `LEVEL_OPS`;
  - the adaptive time limits;
  - the pacing delays;
  - the hint chosen by `get_hint`.
- `skills.dfy` (`Skills`): the per-topic counters and `accuracy`, plus the weakest-topic
  choice made by the stable sort.
- `difficulty.dfy` (`Difficulty`): `adaptive_difficulty`. It is split into the decision rule
  `Decide` and its inputs:
  - the last five answers;
  - the trailing mistake streak;
  - the mean of the last five times.
- `questions.dfy` (`Questions`): one attempt of `generate_question`, which chooses the topic,
  draws the operands and computes the stored answer. Randomness enters as a `Draw` record.
- `grading.dfy` (`Grading`): the tolerance test and the error-pattern classification.
- `report.dfy` (`Reporting`): the `result` payload.
- `engine.dfy` (`Engine`): the session as a value (`SessionState`) and one function per
  handler (`Started`, `Generate`, `Answered`, `ResultOf`). It also holds the session invariant
  `Wellformed` and the lemmas relating these functions.
- `session.dfy` (`Sessions`): `class Session`, whose fields are the dictionary's entries. Each
  handler is a method that updates the fields in place, the way the source does. Each method is
  proved to leave the fields exactly as the matching `Engine` function says, so every lemma
  about those functions holds of the object. The three handlers that change the session also
  keep the session invariant `Valid()`.

The model reproduces these behaviours of the code as written:

- In adaptive mode, every retry of the question loop re-runs the level rule and writes the
  result back. One request can therefore move the level by more than one step.
- `start_game` does not clear the pending question, and `answer` does not consume it.
- A submission that `float()` rejects with a `ValueError` counts as wrong. If the question is
  a subtraction, the handler then fails on the unbound expected value. This happens after the
  counters, the history and `prev_wrong` have been updated.
- A submission that is a JSON array or object raises a `TypeError` in `float()`, and a JSON
  integer too large for a double raises an `OverflowError`. Neither is caught by the
  `except ValueError`; the exception escapes right after the response time is appended. A JSON boolean converts to 1
  or 0 and is graded like a number.
- A duration that `int()` cannot convert makes `start_game` fail after the player name has
  been stored.

Three behaviours of the code that a reader might not expect:

- `accuracy` is 0 whenever no answer was correct, not only when there were no attempts.
- Response times are not always parallel to the history, because the `TypeError` path appends
  a time without a history entry. The invariant is therefore `|history| <= |times|`.
- A `mode` is absent before the first start, and it behaves as fixed mode.

## Model

| member | source | states |
|---|---|---|
| Curriculum.Index | back.py:61 | the position of a level in `LEVELS_ORDER` is a valid index holding that level |
| Curriculum.LevelOps | back.py:39-44 | every level allows addition and subtraction first; multiplication exactly above Easy; division exactly at Hard and Extreme |
| Curriculum.TimeLimit | back.py:75-81 | the promotion time limit lies between 5 and 10 seconds and is 5 from index 2 on (the `.get(idx, 5)` default) |
| Curriculum.TimeLimitStricter | back.py:75 | a harder level below Extreme has a strictly lower time limit |
| Curriculum.LevelOpsMonotone | back.py:39-44 | a harder level never allows fewer topics |
| Curriculum.PacingDelay | back.py:267-275 | the delay is 1500 ms minus 300 ms per level, between 600 and 1500 |
| Curriculum.HintFor | back.py:95-123 | the tip is about the given topic; the Extreme division tip is given exactly for division at Extreme |
| Skills.FreshTable | back.py:216-217 | the reset table has all four topics, each with zero correct, total and mistakes |
| Skills.FreshTableConsistent | back.py:23-28 | every counter of the fresh table satisfies total = correct + mistakes |
| Skills.Accuracy | back.py:51-53 | 0 for an untried topic, otherwise the value whose product with total is correct; in [0, 1] when correct <= total; 0 exactly when untried or never correct |
| Skills.Tally | back.py:248-256 | grading one attempt adds one attempt; `correct` grows exactly when the answer is right and `mistakes` exactly when it is wrong; neither shrinks; total = correct + mistakes is kept |
| Skills.WeakestIndex | back.py:135-138 | the chosen topic has the lowest accuracy of the allowed ones, and every topic listed before it is strictly stronger (stable sort) |
| Difficulty.CountTrue | back.py:78 | `sum(recent)` is at most the number of answers, and equals it exactly when every answer is correct |
| Difficulty.TrailingMistakes | back.py:66-69 | the streak is a run of wrong answers at the end of the history, preceded by a correct answer or by the start |
| Difficulty.TrailingMistakesUnique | back.py:66-69 | those three facts determine the streak, so any count satisfying them equals it |
| Difficulty.LastFive | back.py:64 | the slice has min(5, length) elements, which are the last ones of the sequence |
| Difficulty.MeanOr | back.py:72-73 | the mean times the count is the sum; the fallback when empty |
| Difficulty.RecentMeanTime | back.py:71-73 | `avg_time` is 10 with no recorded time; otherwise its product with the number of recent times (at most five) is the sum of the last five times |
| Difficulty.Decide | back.py:77-92 | the rule moves the level at most one step and keeps it when fewer than five answers are graded |
| Difficulty.DecidePromotesIff | back.py:80-82 | the rule promotes if and only if at least 4 of 5 were correct below Extreme and the mean time beats the limit |
| Difficulty.DecideDemotesIff | back.py:84-90 | the rule demotes if and only if the promotion branch is skipped above Easy and the streak is at least 2, the count at most 2 or the mean time over 15 |
| Difficulty.NextLevel | back.py:56-92 | `adaptive_difficulty` moves at most one level and keeps the level when the history has fewer than five entries |
| Difficulty.PromotesIff | back.py:77-82 | promotion happens if and only if the history has five entries, 4 of the last 5 are correct, the level is below Extreme and the recent mean time is under the level's limit |
| Difficulty.DemotesIff | back.py:77-90 | demotion happens if and only if the history has five entries, the level is above Easy, the promotion branch is not entered and one of the three triggers holds |
| Difficulty.AccurateNeverDemotes | back.py:80-84 | below Extreme, 4 of 5 correct never demotes, and a failed time gate keeps the level |
| Difficulty.SlowExtremeDrops | back.py:80-90 | at Extreme a mean time over 15 s drops the level to Hard even with every answer correct |
| Difficulty.StreakCapsRecentCorrect | back.py:64-69 | a streak of two mistakes leaves at most three correct among the last five |
| Difficulty.StreakDemotes | back.py:84-86 | a streak of two mistakes drops any level above Easy |
| Difficulty.IteratedDrift | back.py:127-130 | applying the rule n times, as the retry loop may, moves the level by at most n steps |
| Difficulty.NextLevelIteratedSucc | back.py:127-130 | the (n+1)-th retry applies the rule to the level the first n left behind |
| Questions.RandInt | back.py:154 | `randint(lo, hi)` lies in [lo, hi] |
| Questions.RandIntOnto | back.py:154 | every value of the range is reached by some draw |
| Questions.OperandRange | back.py:142-149 | every operand range is a non-empty range of positive integers |
| Questions.ChooseTopic | back.py:133-140 | the topic is allowed at the level, and the weakest-topic branch picks one of minimal accuracy, the first such in `LEVEL_OPS` order (every earlier allowed topic is strictly more accurate), as the stable sort's head |
| Questions.FreshTablePicksAddition | back.py:133-138 | on a fresh skills table the weakest-topic branch picks addition at every level |
| Questions.Cents | back.py:169 | the number of hundredths is 100 n / d rounded down or up, and exact when d divides 100 n |
| Questions.CentsClose | back.py:169 | the half-to-even number of hundredths is within one half of 100 n / d |
| Questions.RoundCents | back.py:169 | `round(n / d, 2)` is non-negative and a whole number of hundredths |
| Questions.RoundCentsExact | back.py:169-175 | rounding an exact quotient to hundredths leaves it unchanged, so the exact division answer below Extreme is the rounded quotient of its text |
| Questions.Compose | back.py:151-175 | the drafted question is about the chosen topic, and its stored answer is the one its text asks for (sum, difference, product, quotient rounded to hundredths) |
| Questions.RoundCentsClose | back.py:169 | `round(n / d, 2)` is a whole number of hundredths within 0.005 of the exact quotient |
| Questions.Attempt | back.py:133-175 | every drafted question's topic is in `LEVEL_OPS[level]`, and its stored answer is the one its text asks for |
| Questions.ComposeSumProduct | back.py:153-162 | addition and multiplication operands lie in the level's range, and the answer is their sum or product |
| Questions.ComposeSubtractionNonNegative | back.py:156-159 | the minuend is at least the subtrahend, both lie in range, and the answer is their non-negative difference |
| Questions.ComposeDivisionExact | back.py:171-175 | below Extreme the divisor lies in 2..10, the answer is an integer in the range, and the dividend is the answer times the divisor |
| Questions.ComposeDivisionExtreme | back.py:164-170 | at Extreme the divisor lies in 2..10, the dividend in 10..61, and the stored answer is within 0.005 of the true quotient |
| Grading.Graded | back.py:242 | an answer is correct exactly when it lies strictly within 0.05 of the stored answer |
| Grading.GradedSymmetric | back.py:242 | the tolerance test is symmetric and accepts the stored answer itself |
| Grading.GradedExamples | back.py:242 | 20 is accepted against 20.02 and rejected against 20.1 |
| Grading.ExtremeDivisionTolerance | back.py:242 | any value within 0.045 of an Extreme quotient is graded correct against the rounded answer |
| Grading.Classify | back.py:260-265 | at most one pattern grows, none shrinks; borrowing grows exactly for a subtraction off by a multiple of ten, the times table exactly for multiplication, the inverse exactly for division |
| Reporting.Mastery | back.py:292-294 | the mastery percentage is at least 0, at most 100 when correct <= total, 0 once mistakes reach twice the correct answers, and otherwise the whole part of (100 correct - 50 mistakes) / total (`pct * total <= 100c - 50m < (pct + 1) * total`) |
| Reporting.MasteryExample | back.py:292-294 | 8 correct and 2 mistakes out of 10 score 70% |
| Reporting.MasteryExtremes | back.py:292-293 | no mistakes scores 100%; twice as many mistakes as correct answers scores 0% |
| Reporting.MasteryLines | back.py:289-294 | the lines are exactly the attempted topics, each with its mastery score |
| Reporting.MasteryLinesOrdered | back.py:290-294 | topics given in dictionary order yield lines in that order with no topic twice |
| Reporting.ThresholdNote | back.py:298-301 | the threshold message is the speed-demon one exactly under 5 s, the steady one exactly from 5 s to under 10 s, and the deliberate one exactly from 10 s |
| Reporting.SpeedComment | back.py:298-307 | slow-but-accurate is given exactly when accuracy > 0.8 and mean > 15; fast-but-careless exactly when accuracy < 0.5 and mean < 5; each override replaces the threshold message it contradicts; otherwise the threshold message stands |
| Reporting.OverallAccuracy | back.py:303 | the overall accuracy lies in [0, 1], is 0 for an empty history, and otherwise its product with the history length is the number of correct answers |
| Reporting.Heatmap | back.py:287 | the heatmap has all four topics with their mistakes |
| Reporting.ReportOf | back.py:286-317 | the report carries the player and skills unchanged, an average time of 0 without times and the mean otherwise, the mastery lines of the attempted topics in `TopicOrder` (each with its `Mastery`, in dictionary order, no topic twice), the speed message chosen from the overall accuracy and that average, and all four topics in the heatmap |
| Reporting.EmptySessionCareless | back.py:297-307 | a session with no graded answer and no response time has mean time 0 and is told it answers quickly but makes mistakes |
| Reporting.ReportCoverage | back.py:286-294 | the report keeps every topic in the heatmap and lists a mastery line for a topic exactly when it was attempted |
| Engine.Wellformed | back.py:247-258 | the session invariant implies that the history has one entry per attempt over all topics and that the error patterns never outnumber the mistakes |
| Engine.Initial | back.py:18-35 | the dictionary before any request satisfies the session invariant |
| Engine.ResetWellformed | back.py:209-217 | freshly reset counters, logs and flag satisfy the session invariant |
| Engine.ParseLevel | back.py:199-207 | the mode is adaptive exactly for "Adaptive", which starts at Easy |
| Engine.ParseLevelRecognises | back.py:204-207 | "3".."6" and the four level names select their level in fixed mode |
| Engine.ParseLevelFallback | back.py:207 | any other input selects Easy in fixed mode |
| Engine.LevelChoice | back.py:199-207 | the mode is adaptive exactly when the request's level is "Adaptive", and adaptive mode starts at Easy |
| Engine.LevelChoiceDefault | back.py:199 | a missing level is read as "Easy" |
| Engine.Started | back.py:194-217 | a start fails exactly when the duration does not convert; the pending question is kept; a successful start stores the converted duration (180 when absent) and satisfies the session invariant |
| Engine.StartResets | back.py:194-217 | a successful start zeroes every skill, empties the history, times and asked set, clears the errors and `prev_wrong`, sets the converted duration (180 when absent), the parsed mode and level and the start time, and establishes the invariant; the pending question survives; an unconvertible duration fails with only the player changed |
| Engine.AttemptLevel | back.py:128-132 | in fixed mode an attempt uses the session level |
| Engine.Step | back.py:128-188 | one attempt serves a topic allowed at its level, which it stores; it ends the loop exactly when its question is new; only the level, asked set, pending question and `prev_wrong` change, and a collision changes only the level |
| Engine.GenerateFrom | back.py:127-190 | the remaining attempts change only the level, asked set, pending question and `prev_wrong`, and serve a topic allowed at the stored level |
| Engine.Generate | back.py:126-190 | `generate_question` serves a topic allowed at the level it stores, and changes only the level, asked set, pending question and `prev_wrong` |
| Engine.FirstFresh | back.py:127-177 | the index found is the first attempt whose draw is a question not asked before, every earlier draw having been asked, or 10 when all ten were asked |
| Engine.StepDraws | back.py:128-188 | attempt i, after i collisions, draws the i-th draw at its own level; it ends the loop exactly when that question is new, making its answer pending, and otherwise leaves the session with only the level advanced and no hint |
| Engine.GenerateFromServes | back.py:127-190 | from any attempt on, the loop serves the draw of the first attempt with a new question, at that attempt's level, and makes its answer pending; if none is new, it serves the tenth draw at the tenth level |
| Engine.GenerateSpec | back.py:126-190 | the served topic is allowed at the level it was drawn at, which becomes the session level; only the level, asked set, pending question and `prev_wrong` change; either a new question is recorded, made pending and carries a hint exactly when `prev_wrong` was set (then cleared), or all attempts collided and nothing but the level changed; in adaptive mode the level is the rule applied between 1 and 10 times; the question served is the first new draw, made pending with the answer its text asks for, and an already-asked question is served only when all ten draws were already asked |
| Engine.GenerateWellformed | back.py:177-190 | drawing a question preserves the session invariant |
| Engine.RetryCanSkipALevel | back.py:127-130 | from Easy, a collision at Medium is retried at Hard, so one request can serve a question two levels up |
| Engine.Answered | back.py:228-265 | the no-question error is returned exactly without a pending question and the prompt exactly for an absent or empty answer; the pending question, asked set and level are kept; each log grows by at most one entry |
| Engine.Scored | back.py:239-265 | grading appends the verdict's correctness to the history, sets `prev_wrong` to its negation and tallies it on the question's topic; the server error arises exactly for an unparsable answer to a subtraction; a verdict carries the level's pacing delay, and a wrong one the hint for the question's topic at the session level |
| Engine.AnswerRejected | back.py:229-235 | with no pending question, or an absent or empty answer, the session is unchanged and the matching rejection is returned |
| Engine.AnswerRecords | back.py:236-275 | an accepted submission appends its response time and keeps the player, start time, duration, level, mode, asked set and pending question. Unless it raised a `TypeError`, it also appends one history entry and one attempt to its topic, of which exactly one of correct and mistakes grows. Other topics are unchanged. A wrong answer not cut short by the server error updates the error patterns by the classification of its deviation; otherwise they are unchanged; no pattern shrinks and at most one grows. `prev_wrong` is the outcome. The verdict carries the level's pacing delay and a hint exactly when wrong, namely the tip for the question's topic at the session level; the server error arises exactly for an unparsable wrong subtraction |
| Engine.AnswerWellformed | back.py:236-265 | answering preserves the session invariant, on every path including the `TypeError` one |
| Engine.ScoredWellformed | back.py:247-265 | grading an answer whose time is already logged preserves the session invariant |
| Engine.StaleQuestionSurvivesStart | back.py:209-217 | an answer sent right after a successful start is still graded against the old pending question |
| Engine.ResultOf | back.py:286-317 | the result reports the session's player and skills, every topic's mistakes in the heatmap, one mastery line with its `Mastery` per attempted topic in dictionary order, the mean of the session's times (0 without times) and the speed message for the session's accuracy and that mean |
| Sessions.Session.constructor | back.py:18-35 | the new object holds the initial dictionary and satisfies the invariant |
| Sessions.Session.Start | back.py:194-217 | the fields and reply after the in-place start are those `Engine.Started` gives for the old fields, and the invariant is kept |
| Sessions.Session.ResetLogs | back.py:210-217 | the loop over the topics and the reassignments reset the logs and counters and change nothing else |
| Sessions.ResetTable | back.py:216-217 | a table whose every topic was reset is the fresh table |
| Sessions.Session.AdaptiveDifficulty | back.py:56-92 | the computed level is `NextLevel` of the current level, history and times |
| Sessions.Session.MistakeStreak | back.py:66-69 | the backward loop counts exactly the trailing mistakes |
| Sessions.Session.GenerateQuestion | back.py:126-190 | the fields and served question after the retry loop are those `Engine.Generate` gives for the old fields, and the invariant is kept |
| Sessions.Session.TryDraw | back.py:128-188 | one pass of the loop changes the fields as `Engine.Step` says |
| Sessions.Session.DrawLevel | back.py:128-132 | the attempt's level is `AttemptLevel` of the old fields, and only the level is written back |
| Sessions.Session.Serve | back.py:177-188 | a new question is recorded and made pending, `prev_wrong` is cleared, and the hint is given exactly when it was set |
| Sessions.Session.Answer | back.py:228-249 | the fields and reply after the in-place answer are those `Engine.Answered` gives for the old fields, and the invariant is kept |
| Sessions.Session.Score | back.py:247-265 | the grading half updates the fields as `Engine.Scored` says |
| Sessions.Session.Result | back.py:286-309 | the report built by the loop over the topics equals `Engine.ResultOf` of the fields, and nothing changes |

## Left out

- The Flask application, its routes, `jsonify`, templates, CORS headers and the server start.
  These are transport, so the handlers are modelled as operations on the session.
- `random.random`, `random.randint`, `random.choice` and `time.time` are foreign calls.
  - Each retry attempt takes a `Draw` record of its random values.
  - A request takes the clock reading as a `real`.
  - `randint(lo, hi)` is `lo + r % (hi - lo + 1)` of an arbitrary natural number `r`.
- Floating point: answers, times and scores are exact reals.
  - `Questions.RoundCents` rounds the exact quotient half-to-even. This agrees with `round(x, 2)`
    on these quotients: a tie arises only for divisor 8, where the double value is exact.
  - Near the 0.05 tolerance boundary, doubles and reals can grade differently.
  - `Reporting.Mastery` truncates the exact score. The double computation can land one lower
    when the exact score is a whole percentage: 18 correct and 7 mistakes out of 25 give 57 in
    doubles against 58 exactly.
- `float()` string parsing is abstracted into the `Submission` datatype. The model does not
  decide which strings parse, and it leaves out NaN and infinities.
- `int()` on the duration is abstracted into `DurationField`: a converted number, the default,
  or a failure.
- Names and level values that are not strings are left out; so is a duration given as a JSON
  boolean, which `int()` reads as 1 or 0 (the model takes it as a converted number). A JSON `null` name would store no
  player; the model always stores one.
- `round(avg_time, 2)` in the report: `Report.avgTime` holds the unrounded mean.
- Message and hint wording: hints are the `Tip` tags and speed messages the `SpeedNote` tags.
  Question texts are the injective `Question` triples, and mastery entries are `MasteryLine`
  records instead of the joined message string.
- Some defaults are unreachable, because the level is always one of the four and the topic one
  of the four:
  - the coercion of an unknown level to Easy in `adaptive_difficulty`;
  - the `LEVEL_OPS.get` and `delays.get` defaults;
  - the generic tip at the end of `get_hint`;
  - the question served when the loop makes no attempt.
- The process-wide sharing of the dictionary and concurrent requests: one session object is
  modelled.

=== FILE: curriculum.dfy ===
/**
 * The fixed tables of the drill engine: the four levels in their order, the
 * topics each level allows, the adaptive time limits, the pacing delays and
 * the hint chosen for a topic.
 */
module Curriculum {

  /** A difficulty tier; the declaration order is the order of `LEVELS_ORDER`. */
  datatype Level = Easy | Medium | Hard | Extreme

  /** An arithmetic operation a question can ask about. */
  datatype Topic = Addition | Subtraction | Multiplication | Division

  /** Whether the level is chosen by the learner or by the difficulty engine. */
  datatype Mode = Fixed | Adaptive

  /** The hint texts, one tag per distinct message the source can return for a topic. */
  datatype Tip = AdditionTip | SubtractionTip | MultiplicationTip | DivisionTip | ExtremeDivisionTip

  /** `LEVELS_ORDER`: easiest first. */
  const LevelsOrder: seq<Level> := [Easy, Medium, Hard, Extreme]

  /** The topics in the key order of the skills dictionary (used for reports). */
  const TopicOrder: seq<Topic> := [Addition, Subtraction, Multiplication, Division]

  /** The position of a topic in `TopicOrder`, the key order of the skills dictionary. */
  function TopicRank(t: Topic): (k: nat)
    ensures k < |TopicOrder| && TopicOrder[k] == t
  {
    match t
    case Addition => 0
    case Subtraction => 1
    case Multiplication => 2
    case Division => 3
  }

  /** The position of a level in `LevelsOrder` (`LEVELS_ORDER.index(level)`). */
  function Index(l: Level): (i: nat)
    ensures i < |LevelsOrder| && LevelsOrder[i] == l
  {
    match l
    case Easy => 0
    case Medium => 1
    case Hard => 2
    case Extreme => 3
  }

  /** The level names as they appear in `LEVELS_ORDER` and in requests. */
  function LevelName(l: Level): (name: string)
    ensures name != "Adaptive" && |name| >= 4
  {
    match l
    case Easy => "Easy"
    case Medium => "Medium"
    case Hard => "Hard"
    case Extreme => "Extreme"
  }

  /** `LEVEL_OPS[level]`: the topics a question at that level may ask about, in table order. */
  function LevelOps(l: Level): (ops: seq<Topic>)
    ensures |ops| >= 2 && ops[0] == Addition && ops[1] == Subtraction
    ensures Multiplication in ops <==> l != Easy
    ensures Division in ops <==> (l == Hard || l == Extreme)
  {
    match l
    case Easy => [Addition, Subtraction]
    case Medium => [Addition, Subtraction, Multiplication]
    case Hard => [Addition, Subtraction, Multiplication, Division]
    case Extreme => [Addition, Subtraction, Multiplication, Division]
  }

  /**
   * `time_limit.get(idx, 5)`: the mean response time (seconds) a learner must
   * beat to be promoted from the level with index `idx`.
   */
  function TimeLimit(idx: nat): (limit: real)
    ensures 5.0 <= limit <= 10.0
    ensures idx >= 2 ==> limit == 5.0
  {
    match idx
    case 0 => 10.0
    case 1 => 7.0
    case 2 => 5.0
    case _ => 5.0
  }

  /** The pacing delay in milliseconds a graded answer carries: 300 ms less per level. */
  function PacingDelay(l: Level): (ms: nat)
    ensures ms == 1500 - 300 * Index(l)
    ensures 600 <= ms <= 1500
  {
    match l
    case Easy => 1500
    case Medium => 1200
    case Hard => 900
    case Extreme => 600
  }

  /** The topic a tip is about. */
  function TipTopic(tip: Tip): Topic {
    match tip
    case AdditionTip => Addition
    case SubtractionTip => Subtraction
    case MultiplicationTip => Multiplication
    case DivisionTip => Division
    case ExtremeDivisionTip => Division
  }

  /**
   * `get_hint(topic)` read against the session level `l`: the tip for the
   * topic, with a separate division tip at Extreme (where decimals appear).
   */
  function HintFor(t: Topic, l: Level): (tip: Tip)
    ensures TipTopic(tip) == t
    ensures tip == ExtremeDivisionTip <==> (t == Division && l == Extreme)
  {
    match t
    case Addition => AdditionTip
    case Subtraction => SubtractionTip
    case Multiplication => MultiplicationTip
    case Division => if l == Extreme then ExtremeDivisionTip else DivisionTip
  }

  /** Promotion gets stricter with each level: a harder level has a lower time limit. */
  lemma TimeLimitStricter(i: nat, j: nat)
    requires i < j < 3
    ensures TimeLimit(j) < TimeLimit(i)
  {
  }

  /** A harder level never allows fewer topics. */
  lemma LevelOpsMonotone(l1: Level, l2: Level, t: Topic)
    requires Index(l1) <= Index(l2)
    requires t in LevelOps(l1)
    ensures t in LevelOps(l2)
  {
  }
}

=== FILE: difficulty.dfy ===
/**
 * The adaptive level rule (`adaptive_difficulty`): a decision over the current
 * level, the last five graded answers, the run of mistakes at the end of the
 * history and the mean of the last five response times.
 */
module Difficulty {
  import opened Curriculum

  /** `sum(answers)`: how many answers were correct; all of them exactly when every answer is. */
  function CountTrue(answers: seq<bool>): (n: nat)
    ensures n <= |answers|
    ensures n == |answers| <==> forall k :: 0 <= k < |answers| ==> answers[k]
  {
    if |answers| == 0 then 0
    else CountTrue(answers[..|answers| - 1]) + (if answers[|answers| - 1] then 1 else 0)
  }

  lemma {:induction false} CountTrueAppend(answers: seq<bool>, b: bool)
    ensures CountTrue(answers + [b]) == CountTrue(answers) + (if b then 1 else 0)
  {
    assert (answers + [b])[..|answers|] == answers;
  }

  /**
   * The length of the run of wrong answers at the end of the history: the
   * count the loop over `reversed(history)` reaches before its first correct
   * answer.
   */
  function TrailingMistakes(history: seq<bool>): (n: nat)
    ensures n <= |history|
    ensures forall k :: |history| - n <= k < |history| ==> !history[k]
    ensures n < |history| ==> history[|history| - 1 - n]
  {
    if |history| == 0 || history[|history| - 1] then 0
    else 1 + TrailingMistakes(history[..|history| - 1])
  }

  /** The three facts `TrailingMistakes` ensures pin its value down. */
  lemma TrailingMistakesUnique(history: seq<bool>, m: nat)
    requires m <= |history|
    requires forall k :: |history| - m <= k < |history| ==> !history[k]
    requires m < |history| ==> history[|history| - 1 - m]
    ensures m == TrailingMistakes(history)
  {
  }

  /** The sum of a sequence of durations. */
  function Sum(xs: seq<real>): real {
    if |xs| == 0 then 0.0 else Sum(xs[..|xs| - 1]) + xs[|xs| - 1]
  }

  /** `mean(xs)` when `xs` is non-empty, `fallback` otherwise. */
  function MeanOr(xs: seq<real>, fallback: real): (avg: real)
    ensures |xs| > 0 ==> avg * (|xs| as real) == Sum(xs)
    ensures |xs| == 0 ==> avg == fallback
  {
    if |xs| > 0 then Sum(xs) / (|xs| as real) else fallback
  }

  /** `xs[-5:]`: the last five elements, or all of them when there are fewer. */
  function LastFive<T>(xs: seq<T>): (r: seq<T>)
    ensures |r| == (if |xs| < 5 then |xs| else 5)
    ensures forall k :: 0 <= k < |r| ==> r[k] == xs[|xs| - |r| + k]
  {
    if |xs| < 5 then xs else xs[|xs| - 5..]
  }

  /** `avg_time`: the mean of the last five response times, 10 seconds when none is recorded. */
  function RecentMeanTime(times: seq<real>): (avg: real)
    ensures |times| == 0 ==> avg == 10.0
    ensures 0 < |times| < 5 ==> avg * (|times| as real) == Sum(times)
    ensures |times| >= 5 ==> avg * 5.0 == Sum(times[|times| - 5..])
  {
    MeanOr(LastFive(times), 10.0)
  }

  /**
   * The decision rule of `adaptive_difficulty()` on its four inputs: whether
   * five answers are graded, how many of the last five were correct, the
   * trailing mistake streak and the mean recent time. At least four correct
   * answers below Extreme promote if the mean time beats the level's limit
   * and otherwise keep the level; in every other case a level above Easy
   * drops when the streak is two or more, when at most two of the last five
   * were correct, or when the mean time is over 15 seconds.
   */
  function Decide(level: Level, full: bool, correctCount: nat, streak: nat, avg: real): (next: Level)
    ensures -1 <= Index(next) - Index(level) <= 1
    ensures !full ==> next == level
  {
    var idx := Index(level);
    if full then
      if correctCount >= 4 && idx < 3 then
        if avg < TimeLimit(idx) then LevelsOrder[idx + 1] else level
      else if idx > 0 then
        if streak >= 2 then LevelsOrder[idx - 1]
        else if correctCount <= 2 then LevelsOrder[idx - 1]
        else if avg > 15.0 then LevelsOrder[idx - 1]
        else level
      else level
    else level
  }

  /** The rule promotes exactly when the accuracy and speed gates both pass below Extreme. */
  lemma DecidePromotesIff(level: Level, full: bool, correctCount: nat, streak: nat, avg: real)
    ensures Index(Decide(level, full, correctCount, streak, avg)) == Index(level) + 1
        <==> (full && correctCount >= 4 && Index(level) < 3 && avg < TimeLimit(Index(level)))
  {
  }

  /** The rule demotes exactly when the promotion branch is skipped above Easy and a trigger fires. */
  lemma DecideDemotesIff(level: Level, full: bool, correctCount: nat, streak: nat, avg: real)
    ensures Index(Decide(level, full, correctCount, streak, avg)) == Index(level) - 1
        <==> (full && Index(level) > 0 && !(correctCount >= 4 && Index(level) < 3)
              && (streak >= 2 || correctCount <= 2 || avg > 15.0))
  {
  }

  /**
   * `adaptive_difficulty()`: the level the next question is drawn at, from
   * the current level, the answer history and the response times.
   */
  function NextLevel(level: Level, history: seq<bool>, times: seq<real>): (next: Level)
    ensures -1 <= Index(next) - Index(level) <= 1
    ensures |history| < 5 ==> next == level
  {
    var recent := LastFive(history);
    Decide(level, |recent| >= 5, CountTrue(recent), TrailingMistakes(history), RecentMeanTime(times))
  }

  /** Promotion happens exactly when the accuracy and speed gates both pass below Extreme. */
  lemma PromotesIff(level: Level, history: seq<bool>, times: seq<real>)
    ensures Index(NextLevel(level, history, times)) == Index(level) + 1
        <==> (|history| >= 5 && CountTrue(LastFive(history)) >= 4 && Index(level) < 3
              && RecentMeanTime(times) < TimeLimit(Index(level)))
  {
    DecidePromotesIff(level, |history| >= 5, CountTrue(LastFive(history)), TrailingMistakes(history), RecentMeanTime(times));
  }

  /**
   * Demotion happens exactly when the promotion branch is not entered, the
   * level is above Easy, and one of the three demotion triggers holds.
   */
  lemma DemotesIff(level: Level, history: seq<bool>, times: seq<real>)
    ensures Index(NextLevel(level, history, times)) == Index(level) - 1
        <==> (|history| >= 5 && Index(level) > 0
              && !(CountTrue(LastFive(history)) >= 4 && Index(level) < 3)
              && (TrailingMistakes(history) >= 2 || CountTrue(LastFive(history)) <= 2
                  || RecentMeanTime(times) > 15.0))
  {
    DecideDemotesIff(level, |history| >= 5, CountTrue(LastFive(history)), TrailingMistakes(history), RecentMeanTime(times));
  }

  /**
   * Below Extreme, four or more correct answers out of the last five never
   * demote: a failed time gate keeps the level.
   */
  lemma AccurateNeverDemotes(level: Level, history: seq<bool>, times: seq<real>)
    requires |history| >= 5 && CountTrue(LastFive(history)) >= 4 && Index(level) < 3
    ensures Index(NextLevel(level, history, times)) >= Index(level)
    ensures RecentMeanTime(times) >= TimeLimit(Index(level)) ==> NextLevel(level, history, times) == level
  {
  }

  /**
   * At Extreme the promotion branch is skipped, so a learner with five
   * correct answers out of five still drops to Hard when the mean time is
   * over 15 seconds.
   */
  lemma SlowExtremeDrops(history: seq<bool>, times: seq<real>)
    requires |history| >= 5 && RecentMeanTime(times) > 15.0
    ensures NextLevel(Extreme, history, times) == Hard
  {
  }

  /** The last two answers being wrong leaves at most three correct among the last five. */
  lemma {:induction false} StreakCapsRecentCorrect(history: seq<bool>)
    requires |history| >= 5 && TrailingMistakes(history) >= 2
    ensures CountTrue(LastFive(history)) <= 3
  {
    var r := LastFive(history);
    assert !r[4] && !r[3];
    assert r == r[..4] + [r[4]];
    CountTrueAppend(r[..4], r[4]);
    assert r[..4] == r[..3] + [r[3]];
    CountTrueAppend(r[..3], r[3]);
  }

  /** A mistake streak of two is enough to drop any level above Easy. */
  lemma StreakDemotes(level: Level, history: seq<bool>, times: seq<real>)
    requires |history| >= 5 && TrailingMistakes(history) >= 2 && Index(level) > 0
    ensures Index(NextLevel(level, history, times)) == Index(level) - 1
  {
    StreakCapsRecentCorrect(history);
  }

  /** `n` successive applications of the rule with history and times held fixed. */
  function NextLevelIterated(level: Level, history: seq<bool>, times: seq<real>, n: nat): Level
    decreases n
  {
    if n == 0 then level
    else NextLevelIterated(NextLevel(level, history, times), history, times, n - 1)
  }

  /** One more application of the rule is applied to the result of the first `n`. */
  lemma {:induction false} NextLevelIteratedSucc(level: Level, history: seq<bool>, times: seq<real>, n: nat)
    ensures NextLevelIterated(level, history, times, n + 1)
         == NextLevel(NextLevelIterated(level, history, times, n), history, times)
    decreases n
  {
    if n > 0 {
      var next := NextLevel(level, history, times);
      NextLevelIteratedSucc(next, history, times, n - 1);
      assert NextLevelIterated(level, history, times, n + 1) == NextLevelIterated(next, history, times, n);
      assert NextLevelIterated(level, history, times, n) == NextLevelIterated(next, history, times, n - 1);
    }
  }

  /** Applying the rule `n` times moves the level by at most `n` steps. */
  lemma {:induction false} IteratedDrift(level: Level, history: seq<bool>, times: seq<real>, n: nat)
    ensures -(n as int) <= Index(NextLevelIterated(level, history, times, n)) - Index(level) <= n
    decreases n
  {
    if n > 0 {
      var next := NextLevel(level, history, times);
      IteratedDrift(next, history, times, n - 1);
      assert NextLevelIterated(level, history, times, n) == NextLevelIterated(next, history, times, n - 1);
    }
  }
}

=== FILE: engine.dfy ===
/**
 * The session as a value (the `SESSION` dictionary) and the effect of each
 * of the four actions on it: starting a session, drawing a question,
 * answering it and reporting. The `Session` class performs the same
 * actions by updating its fields in place and is proved to agree with these
 * functions.
 */
module Engine {
  import opened Wrappers
  import opened Curriculum
  import opened Skills
  import opened Difficulty
  import opened Questions
  import opened Grading
  import opened Reporting

  /** `SESSION["current"]`: the topic, the stored answer and the issue time of the pending question. */
  datatype Pending = Pending(topic: Topic, answer: real, start: real)

  /** A snapshot of every field of `SESSION`. */
  datatype SessionState = SessionState(
    player: Option<string>,
    mode: Mode,
    level: Level,
    startTime: Option<real>,
    duration: int,
    skills: SkillTable,
    current: Option<Pending>,
    asked: set<Question>,
    history: seq<bool>,
    errors: ErrorPatterns,
    times: seq<real>,
    prevWrong: bool)

  /** The `duration` field of a start request, as `int()` sees it. */
  datatype DurationField = DefaultDuration | Seconds(n: int) | Unconvertible

  /** The outcome of `start_game`: acknowledged, or an exception out of `int(duration)`. */
  datatype StartReply = StartedOk | StartFailed

  /** What `generate_question` returns: the question, the level it was drawn at and the hint, if any. */
  datatype Served = Served(question: Question, level: Level, hint: Option<Tip>)

  /**
   * What `answer` returns: the `no_active_question` error, the prompt for an
   * empty submission, a verdict with its hint and pacing delay, or an
   * exception escaping the handler.
   */
  datatype Reply = NoActiveQuestion | EnterNumber | Verdict(correct: bool, hint: Option<Tip>, delayMs: nat) | ServerError

  function SumCorrect(m: SkillTable): nat
    requires Complete(m)
  {
    m[Addition].correct + m[Subtraction].correct + m[Multiplication].correct + m[Division].correct
  }

  function SumMistakes(m: SkillTable): nat
    requires Complete(m)
  {
    m[Addition].mistakes + m[Subtraction].mistakes + m[Multiplication].mistakes + m[Division].mistakes
  }

  /** Every attempt of every topic was either correct or a mistake, and the history logs each attempt. */
  predicate CountersAgree(s: SessionState)
    requires Complete(s.skills)
  {
    && AllConsistent(s.skills)
    && CountTrue(s.history) == SumCorrect(s.skills)
    && |s.history| == SumCorrect(s.skills) + SumMistakes(s.skills)
  }

  /** Every wrong product and quotient is tallied; borrowing errors are some of the wrong differences. */
  predicate PatternsAgree(s: SessionState)
    requires Complete(s.skills)
  {
    && s.errors.mulTable == s.skills[Multiplication].mistakes
    && s.errors.divInverse == s.skills[Division].mistakes
    && s.errors.subBorrowing <= s.skills[Subtraction].mistakes
  }

  /** Each graded answer has a response time, and `prev_wrong` is only set right after a wrong answer. */
  predicate LogsAgree(s: SessionState) {
    && |s.history| <= |s.times|
    && (s.prevWrong ==> |s.history| > 0 && !s.history[|s.history| - 1])
  }

  /**
   * The session invariant. It implies that every logged answer is an
   * attempt of some topic and that error patterns never outnumber mistakes.
   */
  predicate Wellformed(s: SessionState): (ok: bool)
    ensures ok ==> Complete(s.skills)
    ensures ok ==> |s.history| == s.skills[Addition].total + s.skills[Subtraction].total
                                  + s.skills[Multiplication].total + s.skills[Division].total
    ensures ok ==> s.errors.subBorrowing + s.errors.mulTable + s.errors.divInverse <= SumMistakes(s.skills)
  {
    Complete(s.skills) && CountersAgree(s) && PatternsAgree(s) && LogsAgree(s)
  }

  /** A session whose counters, logs and flag are all freshly reset satisfies the invariant. */
  lemma ResetWellformed(s: SessionState)
    requires s.skills == FreshTable() && s.history == [] && s.errors == NoErrors && !s.prevWrong
    ensures Wellformed(s)
  {
    FreshTableConsistent();
  }

  /** One graded attempt on topic `t` adds one to the correct or to the mistake total. */
  lemma TallySums(m: SkillTable, t: Topic, ok: bool)
    requires Complete(m)
    ensures SumCorrect(m[t := Tally(m[t], ok)]) == SumCorrect(m) + (if ok then 1 else 0)
    ensures SumMistakes(m[t := Tally(m[t], ok)]) == SumMistakes(m) + (if ok then 0 else 1)
  {
    match t
    case Addition =>
    case Subtraction =>
    case Multiplication =>
    case Division =>
  }

  /** The `SESSION` dictionary before any request: a missing `mode` behaves as Fixed. */
  function Initial(): (s: SessionState)
    ensures Wellformed(s)
  {
    var s := SessionState(None, Fixed, Easy, None, 180, FreshTable(), None, {}, [], NoErrors, [], false);
    ResetWellformed(s);
    s
  }

  // ---------------------------------------------------------------- start_game

  /** The numeric level codes a start request may use. */
  function LevelCode(l: Level): (code: string)
    ensures |code| == 1
  {
    ["3", "4", "5", "6"][Index(l)]
  }

  /** `lvl_map`: the numeric codes a start request may use for a level. */
  const LevelCodes: map<string, Level> := map["3" := Easy, "4" := Medium, "5" := Hard, "6" := Extreme]

  /** The names in `LEVELS_ORDER`, each with its level. */
  const LevelNames: map<string, Level> := map["Easy" := Easy, "Medium" := Medium, "Hard" := Hard, "Extreme" := Extreme]

  /**
   * The mode and level a start request selects: "Adaptive" starts adaptive
   * at Easy, a code of `lvl_map` or a name of `LEVELS_ORDER` selects that
   * level in fixed mode, and anything else falls back to a fixed Easy.
   */
  function ParseLevel(input: string): (r: (Mode, Level))
    ensures r.0 == Adaptive <==> input == "Adaptive"
    ensures r.0 == Adaptive ==> r.1 == Easy
  {
    if input == "Adaptive" then (Adaptive, Easy)
    else if input in LevelCodes then (Fixed, LevelCodes[input])
    else if input in LevelNames then (Fixed, LevelNames[input])
    else (Fixed, Easy)
  }

  /**
   * `data.get("level", "Easy")` followed by the parse; a request without a
   * level is read as "Easy", which selects a fixed Easy.
   */
  function LevelChoice(input: Option<string>): (r: (Mode, Level))
    ensures r.0 == Adaptive <==> input == Some("Adaptive")
    ensures r.0 == Adaptive ==> r.1 == Easy
  {
    match input
    case None => (Fixed, Easy)
    case Some(v) => ParseLevel(v)
  }

  /** A missing level is parsed as the default "Easy". */
  lemma LevelChoiceDefault(input: Option<string>)
    ensures LevelChoice(input) == ParseLevel(input.GetOr("Easy"))
  {
    if input.None? {
      ParseLevelRecognises(Easy);
    }
  }

  /** Each level's code and each level's name select that level, in fixed mode. */
  lemma ParseLevelRecognises(l: Level)
    ensures ParseLevel(LevelCode(l)) == (Fixed, l)
    ensures ParseLevel(LevelName(l)) == (Fixed, l)
  {
    match l
    case Easy =>
    case Medium =>
    case Hard =>
    case Extreme =>
  }

  /** Any other input selects a fixed Easy. */
  lemma ParseLevelFallback(input: string)
    requires input != "Adaptive"
    requires forall l :: input != LevelCode(l) && input != LevelName(l)
    ensures ParseLevel(input) == (Fixed, Easy)
  {
    assert input != LevelCode(Easy) && input != LevelCode(Medium);
    assert input != LevelCode(Hard) && input != LevelCode(Extreme);
    assert input != LevelName(Easy) && input != LevelName(Medium);
    assert input != LevelName(Hard) && input != LevelName(Extreme);
  }

  /**
   * `start_game`: records the player, then the duration (which can raise),
   * then the mode and level, the start time, and resets every collection and
   * counter. The pending question is left as it was.
   */
  function Started(s: SessionState, name: Option<string>, duration: DurationField,
                   levelInput: Option<string>, now: real): (r: (SessionState, StartReply))
    ensures r.1 == StartFailed <==> duration.Unconvertible?
    ensures r.0.current == s.current
    ensures r.1 == StartedOk ==> Wellformed(r.0)
    ensures r.1 == StartedOk ==> r.0.duration == (if duration.Seconds? then duration.n else 180)
  {
    var named := s.(player := Some(name.GetOr("Player")));
    if duration.Unconvertible? then (named, StartFailed)
    else
      var seconds := if duration.Seconds? then duration.n else 180;
      var choice := LevelChoice(levelInput);
      (named.(duration := seconds, mode := choice.0, level := choice.1, startTime := Some(now),
              asked := {}, history := [], errors := NoErrors, times := [], prevWrong := false,
              skills := FreshTable()),
       StartedOk)
  }

  /**
   * A successful start zeroes every counter and empties every log, whatever
   * came before; a failed one has only renamed the player.
   */
  lemma StartResets(s: SessionState, name: Option<string>, duration: DurationField,
                    levelInput: Option<string>, now: real)
    ensures var (s', reply) := Started(s, name, duration, levelInput, now);
      && (reply == StartedOk || Wellformed(s) ==> Wellformed(s'))
      && s'.player == Some(name.GetOr("Player"))
      && s'.current == s.current
      && (reply == StartFailed <==> duration.Unconvertible?)
      && (reply == StartFailed ==> s' == s.(player := s'.player))
      && (reply == StartedOk ==>
            && (forall t: Topic :: s'.skills[t] == SkillStat(0, 0, 0))
            && s'.history == [] && s'.times == [] && s'.asked == {}
            && s'.errors == NoErrors && !s'.prevWrong
            && (s'.mode, s'.level) == LevelChoice(levelInput)
            && s'.duration == (if duration.Seconds? then duration.n else 180)
            && s'.startTime == Some(now))
  {
    var (s', reply) := Started(s, name, duration, levelInput, now);
    if reply == StartedOk {
      ResetWellformed(s');
    }
  }

  // --------------------------------------------------------- generate_question

  /** The level of one attempt: re-run the adaptive rule in adaptive mode, keep the level otherwise. */
  function AttemptLevel(s: SessionState): (l: Level)
    ensures s.mode == Fixed ==> l == s.level
  {
    if s.mode == Adaptive then NextLevel(s.level, s.history, s.times) else s.level
  }

  /**
   * One attempt of the retry loop: the level is decided and written back,
   * a question is drawn, and if it was not asked before it is recorded,
   * made pending and served, with a hint when the previous answer was
   * wrong. The flag says whether the attempt ended the loop.
   */
  function Step(s: SessionState, draw: Draw, now: real): (r: (SessionState, Served, bool))
    requires Complete(s.skills)
    ensures r.1.question.op in LevelOps(r.1.level) && r.0.level == r.1.level
    ensures r.2 <==> r.1.question !in s.asked
    ensures r.0 == s.(level := r.0.level, asked := r.0.asked, current := r.0.current, prevWrong := r.0.prevWrong)
    ensures !r.2 ==> r.0 == s.(level := r.0.level)
  {
    var lvl := AttemptLevel(s);
    var d := Attempt(lvl, s.skills, draw);
    var s1 := s.(level := lvl);
    if d.question !in s.asked then
      var hint := if s.prevWrong then Some(HintFor(d.question.op, lvl)) else None;
      (s1.(asked := s.asked + {d.question},
           current := Some(Pending(d.question.op, d.answer, now)),
           prevWrong := false),
       Served(d.question, lvl, hint),
       true)
    else (s1, Served(d.question, lvl, None), false)
  }

  /**
   * Attempts `i` to 9 of the retry loop, `last` being what the previous
   * attempt drew: the first attempt that ends the loop is served; if all
   * ten collide the last one is served as is.
   */
  function GenerateFrom(s: SessionState, draws: seq<Draw>, now: real, i: nat, last: Served): (r: (SessionState, Served))
    requires Complete(s.skills) && |draws| == 10 && i <= 10
    ensures i < 10 ==> r.1.question.op in LevelOps(r.1.level) && r.0.level == r.1.level
    ensures r.0 == s.(level := r.0.level, asked := r.0.asked, current := r.0.current, prevWrong := r.0.prevWrong)
    decreases 10 - i
  {
    if i == 10 then (s, last)
    else
      var (s1, out, done) := Step(s, draws[i], now);
      if done then (s1, out) else GenerateFrom(s1, draws, now, i + 1, out)
  }

  /** `generate_question()` with the random draws of its ten attempts and the clock reading `now`. */
  function Generate(s: SessionState, draws: seq<Draw>, now: real): (r: (SessionState, Served))
    requires Complete(s.skills) && |draws| == 10
    ensures r.1.question.op in LevelOps(r.1.level) && r.0.level == r.1.level
    ensures r.0 == s.(level := r.0.level, asked := r.0.asked, current := r.0.current, prevWrong := r.0.prevWrong)
  {
    GenerateFrom(s, draws, now, 0, Served(Question(0, Addition, 0), s.level, None))
  }

  /** What a call of the retry loop from attempt `i` guarantees. */
  ghost predicate GenerateOutcome(s: SessionState, s': SessionState, out: Served, now: real, steps: nat) {
    && out.question.op in LevelOps(out.level)
    && s'.level == out.level
    && (s.mode == Fixed ==> s'.level == s.level)
    && (s.mode == Adaptive ==>
          exists n: nat {:trigger NextLevelIterated(s.level, s.history, s.times, n)} ::
            1 <= n <= steps && s'.level == NextLevelIterated(s.level, s.history, s.times, n))
    && s' == s.(level := s'.level, asked := s'.asked, current := s'.current, prevWrong := s'.prevWrong)
    && ((&& out.question !in s.asked
         && s'.asked == s.asked + {out.question}
         && s'.current.Some? && s'.current.value.topic == out.question.op && s'.current.value.start == now
         && !s'.prevWrong
         && (out.hint.Some? <==> s.prevWrong)
         && (out.hint.Some? ==> out.hint.value == HintFor(out.question.op, out.level)))
        || (&& out.question in s.asked
            && s'.asked == s.asked && s'.current == s.current && s'.prevWrong == s.prevWrong
            && out.hint.None?))
  }

  lemma {:induction false} GenerateFromOutcome(s: SessionState, draws: seq<Draw>, now: real, i: nat, last: Served)
    requires Complete(s.skills) && |draws| == 10 && i < 10
    ensures var (s', out) := GenerateFrom(s, draws, now, i, last);
      GenerateOutcome(s, s', out, now, 10 - i)
    decreases 10 - i
  {
    var lvl := AttemptLevel(s);
    var d := Attempt(lvl, s.skills, draws[i]);
    var s1 := s.(level := lvl);
    var (s', out) := GenerateFrom(s, draws, now, i, last);
    if s.mode == Adaptive {
      assert lvl == NextLevelIterated(s.level, s.history, s.times, 1);
    }
    if d.question !in s.asked {
    } else if i == 9 {
      assert (s', out) == (s1, Served(d.question, lvl, None));
    } else {
      GenerateFromOutcome(s1, draws, now, i + 1, Served(d.question, lvl, None));
      assert GenerateOutcome(s1, s', out, now, 10 - (i + 1));
      if s.mode == Adaptive {
        var n: nat :| 1 <= n <= 10 - (i + 1) && s'.level == NextLevelIterated(lvl, s.history, s.times, n);
        assert NextLevelIterated(s.level, s.history, s.times, n + 1) == NextLevelIterated(lvl, s.history, s.times, n);
      }
    }
  }

  /**
   * The level attempt `j` of the retry loop draws at: the adaptive rule
   * applied once per attempt so far (history and times do not change during
   * the loop), or the fixed level.
   */
  function AttemptLevelAt(s: SessionState, j: nat): Level {
    if s.mode == Adaptive then NextLevelIterated(s.level, s.history, s.times, j + 1) else s.level
  }

  /** The level stored when attempt `i` begins. */
  function LevelBefore(s: SessionState, i: nat): Level {
    if s.mode == Adaptive then NextLevelIterated(s.level, s.history, s.times, i) else s.level
  }

  /** What attempt `j` draws from `draws[j]`. */
  function Drawn(s: SessionState, draws: seq<Draw>, j: nat): Draft
    requires Complete(s.skills) && j < |draws|
  {
    Attempt(AttemptLevelAt(s, j), s.skills, draws[j])
  }

  /** The first index from `i` on whose flag is set, or the length when there is none. */
  function FirstSet(flags: seq<bool>, i: nat): (k: nat)
    requires i <= |flags|
    ensures i <= k <= |flags|
    ensures forall j :: i <= j < k ==> !flags[j]
    ensures k < |flags| ==> flags[k]
    decreases |flags| - i
  {
    if i == |flags| then i
    else if flags[i] then i
    else FirstSet(flags, i + 1)
  }

  /** For each of the ten attempts, whether its draw is a question not asked before. */
  function FreshDraws(s: SessionState, draws: seq<Draw>): (f: seq<bool>)
    requires Complete(s.skills) && |draws| == 10
    ensures |f| == 10
    ensures forall j :: 0 <= j < 10 ==> (f[j] <==> Drawn(s, draws, j).question !in s.asked)
  {
    seq(10, j requires 0 <= j < 10 => Drawn(s, draws, j).question !in s.asked)
  }

  /** The first attempt from `i` on that draws a question not asked before, or 10 when none does. */
  function FirstFresh(s: SessionState, draws: seq<Draw>, i: nat): (k: nat)
    requires Complete(s.skills) && |draws| == 10 && i <= 10
    ensures i <= k <= 10
    ensures forall j :: i <= j < k ==> Drawn(s, draws, j).question in s.asked
    ensures k < 10 ==> Drawn(s, draws, k).question !in s.asked
  {
    FirstSet(FreshDraws(s, draws), i)
  }

  /** What the retry loop serves, in terms of the draws of the session `s0` it started from. */
  ghost predicate ServesDraws(s0: SessionState, draws: seq<Draw>, now: real, k: nat, s': SessionState, out: Served)
    requires Complete(s0.skills) && |draws| == 10 && k <= 10
  {
    if k < 10 then
      var d := Drawn(s0, draws, k);
      && out.question == d.question && out.level == AttemptLevelAt(s0, k)
      && s'.current == Some(Pending(d.question.op, d.answer, now))
    else
      && out == Served(Drawn(s0, draws, 9).question, AttemptLevelAt(s0, 9), None)
      && s'.level == AttemptLevelAt(s0, 9)
  }

  /**
   * Started at attempt `i` after `i` collisions, with the level the earlier
   * attempts left behind, the loop serves the first new draw from `i` on, or
   * the tenth draw when there is none.
   */
  lemma {:induction false} GenerateFromServes(s0: SessionState, draws: seq<Draw>, now: real, i: nat, last: Served)
    requires Complete(s0.skills) && |draws| == 10 && i < 10
    requires forall j :: 0 <= j < i ==> Drawn(s0, draws, j).question in s0.asked
    ensures var (s', out) := GenerateFrom(s0.(level := LevelBefore(s0, i)), draws, now, i, last);
      ServesDraws(s0, draws, now, FirstFresh(s0, draws, i), s', out)
    decreases 10 - i
  {
    var s := s0.(level := LevelBefore(s0, i));
    var d := Drawn(s0, draws, i);
    StepDraws(s0, draws, now, i);
    if d.question in s0.asked && i < 9 {
      GenerateFromServes(s0, draws, now, i + 1, Served(d.question, AttemptLevelAt(s0, i), None));
    }
  }

  /** Attempt `i`, after `i` collisions, draws `Drawn(s0, draws, i)` at its own level. */
  lemma StepDraws(s0: SessionState, draws: seq<Draw>, now: real, i: nat)
    requires Complete(s0.skills) && |draws| == 10 && i < 10
    ensures var (s1, out, done) := Step(s0.(level := LevelBefore(s0, i)), draws[i], now);
      var d := Drawn(s0, draws, i);
      && out.question == d.question && out.level == AttemptLevelAt(s0, i)
      && (done <==> d.question !in s0.asked)
      && (done ==> s1.current == Some(Pending(d.question.op, d.answer, now)))
      && (!done ==> s1 == s0.(level := LevelBefore(s0, i + 1)) && out.hint.None?)
  {
    var s := s0.(level := LevelBefore(s0, i));
    if s0.mode == Adaptive {
      NextLevelIteratedSucc(s0.level, s0.history, s0.times, i);
    }
    assert AttemptLevel(s) == AttemptLevelAt(s0, i);
  }

  /**
   * One request: the served question's topic is allowed at the level it was
   * drawn at, which is the new session level; only the level, the asked set,
   * the pending question and `prev_wrong` can change. Either the question is
   * new, is recorded, becomes pending and carries a hint exactly when the
   * previous answer was wrong, or all ten attempts collided and the last one
   * is served with nothing else changed. In adaptive mode the level is the
   * rule applied once per attempt made. In terms of the draws: the question
   * served is the one drawn by the first attempt whose question is new, at
   * that attempt's level, and it is made pending with the answer its text
   * asks for; only when all ten draws were already asked is the tenth one
   * served, at the tenth attempt's level.
   */
  lemma GenerateSpec(s: SessionState, draws: seq<Draw>, now: real)
    requires Complete(s.skills) && |draws| == 10
    ensures var (s', out) := Generate(s, draws, now);
      GenerateOutcome(s, s', out, now, 10)
    ensures var (s', out) := Generate(s, draws, now);
      ServesDraws(s, draws, now, FirstFresh(s, draws, 0), s', out)
    ensures var (s', out) := Generate(s, draws, now);
      FirstFresh(s, draws, 0) < 10 ==> s'.current == Some(Pending(out.question.op, Expected(out.question), now))
  {
    var first := Served(Question(0, Addition, 0), s.level, None);
    GenerateFromOutcome(s, draws, now, 0, first);
    assert s.(level := LevelBefore(s, 0)) == s;
    GenerateFromServes(s, draws, now, 0, first);
  }

  lemma GenerateWellformed(s: SessionState, draws: seq<Draw>, now: real)
    requires Wellformed(s) && |draws| == 10
    ensures Wellformed(Generate(s, draws, now).0)
  {
    GenerateSpec(s, draws, now);
  }

  /**
   * The retry loop re-runs the adaptive rule on every collision, so one
   * request can move the level two steps: at Easy, after at least four
   * correct answers out of the last five at a mean time under Medium's
   * 7-second limit, a first attempt that collides at Medium is retried at
   * Hard and served from there.
   */
  lemma RetryCanSkipALevel(s: SessionState, draws: seq<Draw>, now: real)
    requires Complete(s.skills) && |draws| == 10
    requires s.mode == Adaptive && s.level == Easy && !s.prevWrong
    requires |s.history| >= 5 && CountTrue(LastFive(s.history)) >= 4 && RecentMeanTime(s.times) < 7.0
    requires Attempt(Medium, s.skills, draws[0]).question in s.asked
    requires Attempt(Hard, s.skills, draws[1]).question !in s.asked
    ensures Generate(s, draws, now).1 == Served(Attempt(Hard, s.skills, draws[1]).question, Hard, None)
  {
    PromotesIff(Easy, s.history, s.times);
    PromotesIff(Medium, s.history, s.times);
    var s1 := s.(level := Medium);
    var first := Served(Attempt(Medium, s.skills, draws[0]).question, Medium, None);
    assert Generate(s, draws, now) == GenerateFrom(s1, draws, now, 1, first);
  }

  // -------------------------------------------------------------------- answer

  /**
   * `answer`: without a pending question, or with an absent or empty answer,
   * nothing changes. Otherwise the response time is recorded first; a
   * `TypeError` from `float()` escapes there. The attempt is then graded with
   * the 0.05 tolerance (an unparsable string counts as wrong), counted,
   * logged and `prev_wrong` set; a wrong answer is classified, except that a
   * wrong unparsable answer to a subtraction raises on the unbound expected
   * value first. The pending question stays pending.
   */
  function Answered(s: SessionState, sub: Submission, now: real): (r: (SessionState, Reply))
    requires Complete(s.skills)
    ensures r.1 == NoActiveQuestion <==> s.current.None?
    ensures r.1 == EnterNumber <==> s.current.Some? && (sub.Missing? || sub.Blank?)
    ensures r.0.current == s.current && r.0.asked == s.asked && r.0.level == s.level
    ensures |s.times| <= |r.0.times| <= |s.times| + 1 && |s.history| <= |r.0.history| <= |s.history| + 1
  {
    match s.current
    case None => (s, NoActiveQuestion)
    case Some(q) =>
      if sub.Missing? || sub.Blank? then (s, EnterNumber)
      else
        var timed := s.(times := s.times + [now - q.start]);
        if sub.WrongType? then (timed, ServerError)
        else Scored(timed, q, sub)
  }

  /**
   * The grading half of `answer`, for a submission `float()` accepts or
   * rejects with a `ValueError`: the attempt is graded, counted and logged,
   * `prev_wrong` records the outcome and a wrong answer is classified,
   * unless the unbound expected value of a subtraction raises first.
   */
  function Scored(s: SessionState, q: Pending, sub: Submission): (r: (SessionState, Reply))
    requires Complete(s.skills)
    ensures r.1.Verdict? || r.1 == ServerError
    ensures r.0.history == s.history + [r.1.Verdict? && r.1.correct]
    ensures r.0.prevWrong == !(r.1.Verdict? && r.1.correct)
    ensures r.0.skills == s.skills[q.topic := Tally(s.skills[q.topic], r.1.Verdict? && r.1.correct)]
    ensures r.1 == ServerError <==> q.topic == Subtraction && sub.NotNumeric?
    ensures r.1.Verdict? ==> r.1.delayMs == PacingDelay(s.level)
    ensures r.1.Verdict? && !r.1.correct ==> r.1.hint == Some(HintFor(q.topic, s.level))
  {
    var correct := sub.Numeral? && Graded(sub.value, q.answer);
    var userValue := if sub.Numeral? then sub.value else 0.0;
    var scored := s.(skills := s.skills[q.topic := Tally(s.skills[q.topic], correct)],
                     history := s.history + [correct],
                     prevWrong := !correct);
    if correct then (scored, Verdict(true, None, PacingDelay(s.level)))
    else if q.topic == Subtraction && sub.NotNumeric? then (scored, ServerError)
    else (scored.(errors := Classify(s.errors, q.topic, userValue - q.answer)),
          Verdict(false, Some(HintFor(q.topic, s.level)), PacingDelay(s.level)))
  }

  /** Rejected submissions leave the whole session as it was. */
  lemma AnswerRejected(s: SessionState, sub: Submission, now: real)
    requires Complete(s.skills)
    requires s.current.None? || sub.Missing? || sub.Blank?
    ensures Answered(s, sub, now).0 == s
    ensures Answered(s, sub, now).1 == (if s.current.None? then NoActiveQuestion else EnterNumber)
  {
  }

  /**
   * An accepted submission always appends its response time. Unless it
   * raised a `TypeError`, it also appends one history entry and one attempt
   * to the question's topic, of which exactly one of `correct` and
   * `mistakes` grows; other topics are untouched; a wrong answer that is
   * not cut short by the server error is classified, so at most one error
   * pattern grows by one and none shrinks; `prev_wrong` records the outcome.
   * The player, start time, duration, level and mode are untouched, and
   * the pending question is not consumed.
   */
  lemma AnswerRecords(s: SessionState, sub: Submission, now: real)
    requires Wellformed(s) && s.current.Some? && !sub.Missing? && !sub.Blank?
    ensures var (s', reply) := Answered(s, sub, now);
      var q := s.current.value;
      var t := q.topic;
      && s'.times == s.times + [now - q.start]
      && s'.current == s.current
      && s'.asked == s.asked && s'.level == s.level && s'.mode == s.mode
      && s'.player == s.player && s'.startTime == s.startTime && s'.duration == s.duration
      && (sub.WrongType? ==> reply == ServerError && s' == s.(times := s'.times))
      && (!sub.WrongType? ==>
            var ok := sub.Numeral? && Graded(sub.value, q.answer);
            && s'.history == s.history + [ok]
            && s'.skills[t].total == s.skills[t].total + 1
            && (ok ==> s'.skills[t].correct == s.skills[t].correct + 1 && s'.skills[t].mistakes == s.skills[t].mistakes)
            && (!ok ==> s'.skills[t].mistakes == s.skills[t].mistakes + 1 && s'.skills[t].correct == s.skills[t].correct)
            && (forall u: Topic :: u != t ==> s'.skills[u] == s.skills[u])
            && s'.prevWrong == !ok
            && (ok || reply == ServerError ==> s'.errors == s.errors)
            && (!ok && reply != ServerError ==>
                  s'.errors == Classify(s.errors, t, (if sub.Numeral? then sub.value else 0.0) - q.answer))
            && s'.errors.subBorrowing >= s.errors.subBorrowing && s'.errors.mulTable >= s.errors.mulTable
            && s'.errors.divInverse >= s.errors.divInverse
            && s'.errors.subBorrowing + s'.errors.mulTable + s'.errors.divInverse
               <= s.errors.subBorrowing + s.errors.mulTable + s.errors.divInverse + 1
            && (reply.Verdict? ==> reply.correct == ok && reply.delayMs == PacingDelay(s.level)
                                   && (reply.hint.Some? <==> !ok))
            && (reply.Verdict? && !ok ==> reply.hint == Some(HintFor(t, s.level)))
            && (reply == ServerError <==> (!ok && t == Subtraction && sub.NotNumeric?)))
  {
    var q := s.current.value;
    var timed := s.(times := s.times + [now - q.start]);
    if sub.WrongType? {
      assert Answered(s, sub, now) == (timed, ServerError);
    } else {
      var r := Scored(timed, q, sub);
      assert Answered(s, sub, now) == r;
      var ok := sub.Numeral? && Graded(sub.value, q.answer);
      assert r.0.history == s.history + [ok];
      assert r.1.Verdict? ==> r.1.correct == ok;
    }
  }

  lemma {:induction false} AnswerWellformed(s: SessionState, sub: Submission, now: real)
    requires Wellformed(s)
    ensures Wellformed(Answered(s, sub, now).0)
  {
    var s' := Answered(s, sub, now).0;
    if s.current.Some? && !sub.Missing? && !sub.Blank? {
      var q := s.current.value;
      var timed := s.(times := s.times + [now - q.start]);
      assert LogsAgree(timed);
      if sub.WrongType? {
        assert s' == timed;
      } else {
        ScoredWellformed(timed, q, sub);
        assert s' == Scored(timed, q, sub).0;
      }
    } else {
      assert s' == s;
    }
  }

  /** Grading an answer whose response time is already logged preserves the invariant. */
  lemma {:induction false} ScoredWellformed(s: SessionState, q: Pending, sub: Submission)
    requires Wellformed(s) && |s.history| < |s.times|
    ensures Wellformed(Scored(s, q, sub).0)
  {
    var (s', reply) := Scored(s, q, sub);
    var ok := reply.Verdict? && reply.correct;
    var m' := s.skills[q.topic := Tally(s.skills[q.topic], ok)];
    assert s'.skills == m';
    CountTrueAppend(s.history, ok);
    TallySums(s.skills, q.topic, ok);
    assert q.topic != Multiplication ==> m'[Multiplication] == s.skills[Multiplication];
    assert q.topic != Division ==> m'[Division] == s.skills[Division];
    assert q.topic != Subtraction ==> m'[Subtraction] == s.skills[Subtraction];
  }

  /**
   * Starting a session does not clear the pending question, so an answer
   * sent right after a successful start is still graded and counted.
   */
  lemma StaleQuestionSurvivesStart(s: SessionState, name: Option<string>, levelInput: Option<string>,
                                   now: real, value: real, later: real)
    requires s.current.Some?
    ensures var s' := Started(s, name, DefaultDuration, levelInput, now).0;
      var (s'', reply) := Answered(s', Numeral(value), later);
      reply.Verdict? && |s''.history| == 1
  {
  }

  // -------------------------------------------------------------------- result

  /** `result()` on a session. */
  function ResultOf(s: SessionState): (r: Report)
    requires Complete(s.skills)
    ensures r.player == s.player && r.skills == s.skills
    ensures forall t: Topic :: t in r.heatmap && r.heatmap[t] == s.skills[t].mistakes
    ensures r.mastery == MasteryLines(s.skills, TopicOrder)
    ensures LinesOrdered(r.mastery)
    ensures forall line :: line in r.mastery ==> s.skills[line.topic].total > 0 && line.percent == Mastery(s.skills[line.topic])
    ensures r.speed == SpeedComment(OverallAccuracy(s.history), MeanOr(s.times, 0.0))
    ensures r.avgTime == MeanOr(s.times, 0.0)
  {
    ReportOf(s.player, s.skills, s.history, s.times)
  }
}

=== FILE: grading.dfy ===
/**
 * Grading a submitted answer against the stored one, and the heuristic
 * classification of wrong answers into error patterns.
 */
module Grading {
  import opened Curriculum
  import opened Questions

  /**
   * The `answer` field of a submission, as `float()` sees it: absent or
   * `null`, the empty string, a value `float()` converts (a number, a
   * numeric string, or a boolean, read as 1 or 0), a string it rejects with
   * `ValueError`, or a value it rejects with an exception other than
   * `ValueError`: an array or object (`TypeError`), or a JSON integer too
   * large for a double (`OverflowError`).
   */
  datatype Submission = Missing | Blank | Numeral(value: real) | NotNumeric | WrongType

  /** `error_patterns`: heuristic tallies of wrong answers. */
  datatype ErrorPatterns = ErrorPatterns(subBorrowing: nat, mulTable: nat, divInverse: nat)

  const NoErrors := ErrorPatterns(0, 0, 0)

  function Abs(x: real): (r: real)
    ensures r >= 0.0 && (r == x || r == -x)
  {
    if x < 0.0 then -x else x
  }

  /** The tolerance within which a submitted value counts as correct. */
  const Tolerance: real := 0.05

  /** `abs(user_val - correct_val) < 0.05`. */
  predicate Graded(user: real, expected: real): (ok: bool)
    ensures ok <==> expected - Tolerance < user < expected + Tolerance
  {
    Abs(user - expected) < Tolerance
  }

  /** Grading is symmetric and accepts the stored answer itself. */
  lemma GradedSymmetric(user: real, expected: real)
    ensures Graded(user, expected) == Graded(expected, user)
    ensures Graded(expected, expected)
  {
  }

  /** Submitting 20 against 20.02 is correct; against 20.1 it is not. */
  lemma GradedExamples()
    ensures Graded(20.0, 20.02)
    ensures !Graded(20.0, 20.1)
  {
  }

  /**
   * At Extreme, any value within 0.045 of the exact quotient is graded correct
   * against the stored two-decimal answer.
   */
  lemma ExtremeDivisionTolerance(n: nat, d: nat, user: real)
    requires d > 0
    requires Abs(user - (n as real) / (d as real)) < 0.045
    ensures Graded(user, RoundCents(n, d))
  {
    RoundCentsClose(n, d);
  }

  /** `x % 10 == 0` for a non-negative real: a whole multiple of ten. */
  predicate MultipleOfTen(x: real) {
    x.Floor as real == x && x.Floor % 10 == 0
  }

  /**
   * The error-pattern update for a wrong answer on `topic`, where `deviation`
   * is `user_val - correct_val`: a subtraction off by a multiple of ten is a
   * borrowing error, any wrong product a times-table error and any wrong
   * quotient an inverse-operation error.
   */
  function Classify(e: ErrorPatterns, topic: Topic, deviation: real): (e': ErrorPatterns)
    ensures e'.subBorrowing + e'.mulTable + e'.divInverse <= e.subBorrowing + e.mulTable + e.divInverse + 1
    ensures e'.subBorrowing >= e.subBorrowing && e'.mulTable >= e.mulTable && e'.divInverse >= e.divInverse
    ensures e'.subBorrowing > e.subBorrowing <==> (topic == Subtraction && MultipleOfTen(Abs(deviation)))
    ensures e'.mulTable > e.mulTable <==> topic == Multiplication
    ensures e'.divInverse > e.divInverse <==> topic == Division
  {
    if topic == Subtraction && MultipleOfTen(Abs(deviation)) then e.(subBorrowing := e.subBorrowing + 1)
    else if topic == Multiplication then e.(mulTable := e.mulTable + 1)
    else if topic == Division then e.(divInverse := e.divInverse + 1)
    else e
  }
}

=== FILE: questions.dfy ===
/**
 * One attempt of `generate_question`: choosing the topic, drawing operands
 * from the level's ranges and computing the expected answer. The random
 * draws are parameters.
 */
module Questions {
  import opened Curriculum
  import opened Skills

  /**
   * A question, identified by the triple its text `"{a} {symbol} {b}"` is
   * formatted from; two distinct triples never print the same text.
   */
  datatype Question = Question(a: int, op: Topic, b: int)

  /**
   * The random values one attempt consumes: `weakest` is `random.random() < 0.5`,
   * `pick` drives `random.choice(allowed)`, `x`, `y` and `factor` drive the
   * `random.randint` calls in the order the source makes them, and `bump` is
   * `random.random() < 0.4`.
   */
  datatype Draw = Draw(weakest: bool, pick: nat, x: nat, y: nat, factor: nat, bump: bool)

  /** An inclusive integer range `(lo, hi)`. */
  datatype Range = Range(lo: int, hi: int)

  /** A question together with the answer stored for it in `SESSION["current"]`. */
  datatype Draft = Draft(question: Question, answer: real)

  /** `random.randint(lo, hi)`, driven by an arbitrary draw `r`. */
  function RandInt(lo: int, hi: int, r: nat): (v: int)
    requires lo <= hi
    ensures lo <= v <= hi
  {
    lo + r % (hi - lo + 1)
  }

  /** Every value of the range is reached by some draw. */
  lemma RandIntOnto(lo: int, hi: int, v: int)
    requires lo <= v <= hi
    ensures RandInt(lo, hi, (v - lo) as nat) == v
  {
  }

  /** The operand range of a topic at a level (`add_range` … `div_range`). */
  function OperandRange(l: Level, t: Topic): (r: Range)
    ensures 1 <= r.lo < r.hi
  {
    match l
    case Easy =>
      (match t
       case Addition => Range(1, 20)
       case Subtraction => Range(1, 20)
       case Multiplication => Range(1, 5)
       case Division => Range(1, 10))
    case Medium =>
      (match t
       case Addition => Range(10, 50)
       case Subtraction => Range(10, 50)
       case Multiplication => Range(2, 10)
       case Division => Range(2, 10))
    case Hard =>
      (match t
       case Addition => Range(50, 100)
       case Subtraction => Range(20, 100)
       case Multiplication => Range(5, 15)
       case Division => Range(5, 15))
    case Extreme =>
      (match t
       case Addition => Range(100, 500)
       case Subtraction => Range(100, 500)
       case Multiplication => Range(10, 20)
       case Division => Range(10, 20))
  }

  /** A draw from the range of topic `t` at level `l`. */
  function Operand(l: Level, t: Topic, r: nat): int {
    var rg := OperandRange(l, t);
    RandInt(rg.lo, rg.hi, r)
  }

  /**
   * The topic of an attempt: the weakest allowed topic when `d.weakest`,
   * otherwise `random.choice` among the allowed topics.
   */
  function ChooseTopic(l: Level, m: SkillTable, d: Draw): (t: Topic)
    requires Complete(m)
    ensures t in LevelOps(l)
    ensures d.weakest ==> forall u :: u in LevelOps(l) ==> Accuracy(m[t]) <= Accuracy(m[u])
    ensures d.weakest ==> exists i :: (0 <= i < |LevelOps(l)| && LevelOps(l)[i] == t &&
      forall j :: 0 <= j < i ==> Accuracy(m[LevelOps(l)[j]]) > Accuracy(m[t]))
  {
    var allowed := LevelOps(l);
    if d.weakest then allowed[WeakestIndex(allowed, m)]
    else allowed[d.pick % |allowed|]
  }

  /** On a fresh table every topic ties at accuracy 0, so the weakest-topic rule picks addition. */
  lemma FreshTablePicksAddition(l: Level, d: Draw)
    requires d.weakest
    ensures ChooseTopic(l, FreshTable(), d) == Addition
  {
    var m := FreshTable();
    var ops := LevelOps(l);
    var t := ChooseTopic(l, m, d);
    assert Accuracy(m[ops[0]]) == 0.0 && Accuracy(m[t]) == 0.0;
    var i :| 0 <= i < |ops| && ops[i] == t && forall j :: 0 <= j < i ==> Accuracy(m[ops[j]]) > Accuracy(m[t]);
    assert !(0 < i);
  }

  /**
   * `round(n / d, 2)` for the positive quotients of Extreme division:
   * rounding to the nearest hundredth, ties to the even hundredth.
   */
  function RoundCents(n: nat, d: nat): (r: real)
    requires d > 0
    ensures r >= 0.0
    ensures (r * 100.0).Floor as real == r * 100.0
  {
    var c := Cents(n, d) as real;
    assert c / 100.0 * 100.0 == c;
    c / 100.0
  }

  /** `100 n / d` rounded to the nearest integer, ties to even. */
  function Cents(n: nat, d: nat): (c: nat)
    requires d > 0
    ensures c == (100 * n) / d || c == (100 * n) / d + 1
    ensures (100 * n) % d == 0 ==> c == (100 * n) / d
  {
    var q := (100 * n) / d;
    var rem := (100 * n) % d;
    if 2 * rem < d then q
    else if 2 * rem > d then q + 1
    else if q % 2 == 0 then q
    else q + 1
  }

  /** The sign of a product with a positive factor is the sign of the other factor. */
  lemma ProductSign(a: real, b: real, p: real)
    requires b > 0.0 && p == a * b
    ensures (p > 0.0 <==> a > 0.0) && (p < 0.0 <==> a < 0.0)
  {
  }

  /** Where the remainder fraction `rem / d` lies, against one half. */
  lemma RemainderFraction(rem: nat, d: nat)
    requires rem < d
    ensures var f := (rem as real) / (d as real);
      0.0 <= f < 1.0
      && (2 * rem < d ==> f < 0.5)
      && (2 * rem > d ==> f > 0.5)
      && (2 * rem == d ==> f == 0.5)
  {
    var dr, x := d as real, rem as real;
    var f := x / dr;
    ProductSign(f, dr, x);
    ProductSign(f - 1.0, dr, x - dr);
    ProductSign(f - 0.5, dr, x - 0.5 * dr);
  }

  /** `100 n / d` splits into the integer quotient and the remainder fraction. */
  lemma ScaledQuotient(n: nat, d: nat)
    requires d > 0
    ensures 100.0 * ((n as real) / (d as real))
         == ((100 * n) / d) as real + (((100 * n) % d) as real) / (d as real)
  {
    var q := (100 * n) / d;
    var rem := (100 * n) % d;
    var dr := d as real;
    assert (100 * n) as real == (q as real) * dr + rem as real;
    calc {
      100.0 * ((n as real) / dr);
      ((100 * n) as real) / dr;
      ((q as real) * dr + rem as real) / dr;
      (q as real) + (rem as real) / dr;
    }
  }

  /** The rounded number of hundredths is within one half of `100 n / d`. */
  lemma CentsClose(n: nat, d: nat)
    requires d > 0
    ensures -0.5 <= Cents(n, d) as real - 100.0 * ((n as real) / (d as real)) <= 0.5
  {
    var q := (100 * n) / d;
    var rem := (100 * n) % d;
    ScaledQuotient(n, d);
    RemainderFraction(rem, d);
  }

  /** The rounded quotient is a whole number of hundredths within half a hundredth of the exact one. */
  lemma RoundCentsClose(n: nat, d: nat)
    requires d > 0
    ensures var r := RoundCents(n, d);
      -0.005 <= r - (n as real) / (d as real) <= 0.005
      && (r * 100.0).Floor as real == r * 100.0
  {
    CentsClose(n, d);
    var c := Cents(n, d) as real;
    assert RoundCents(n, d) * 100.0 == c;
  }

  /**
   * Operands and answer of one attempt at level `l` on topic `t`:
   * subtraction orders its operands so the answer is not negative; below
   * Extreme a division question is built as `quotient × divisor ÷ divisor`;
   * at Extreme the dividend is a range value times 1..3, sometimes plus one,
   * and the answer is the quotient rounded to hundredths.
   */
  function Compose(l: Level, t: Topic, d: Draw): (r: Draft)
    ensures r.question.op == t
    ensures r.answer == Expected(r.question)
  {
    match t
    case Addition =>
      var a, b := Operand(l, t, d.x), Operand(l, t, d.y);
      Draft(Question(a, Addition, b), (a + b) as real)
    case Subtraction =>
      var a, b := Operand(l, t, d.x), Operand(l, t, d.y);
      var (hi, lo) := if a < b then (b, a) else (a, b);
      Draft(Question(hi, Subtraction, lo), (hi - lo) as real)
    case Multiplication =>
      var a, b := Operand(l, t, d.x), Operand(l, t, d.y);
      Draft(Question(a, Multiplication, b), (a * b) as real)
    case Division =>
      if l == Extreme then
        var divisor := RandInt(2, 10, d.x);
        var dividend := Operand(l, t, d.y) * RandInt(1, 3, d.factor) + (if d.bump then 1 else 0);
        Draft(Question(dividend, Division, divisor), RoundCents(dividend, divisor))
      else
        var quotient, divisor := Operand(l, t, d.x), RandInt(2, 10, d.y);
        RoundCentsExact(quotient, divisor);
        Draft(Question(quotient * divisor, Division, divisor), quotient as real)
  }

  /**
   * The answer a question asks for, computed from its text alone: the sum,
   * difference or product of its operands, and for a division the quotient
   * rounded to hundredths (exact whenever the divisor divides the dividend).
   * Every division question has a positive divisor and a non-negative dividend.
   */
  function Expected(q: Question): real {
    match q.op
    case Addition => (q.a + q.b) as real
    case Subtraction => (q.a - q.b) as real
    case Multiplication => (q.a * q.b) as real
    case Division => if q.a >= 0 && q.b > 0 then RoundCents(q.a, q.b) else 0.0
  }

  /** A multiple of `d` divides by `d` exactly. */
  lemma MultipleQuotient(m: nat, d: nat)
    requires d > 0
    ensures (m * d) / d == m && (m * d) % d == 0
  {
    var q, r := (m * d) / d, (m * d) % d;
    assert (m - q) * d == r;
    if q < m {
      MulAtLeast(m - q, d);
    } else if q > m {
      MulAtLeast(q - m, d);
    }
  }

  lemma MulAtLeast(x: int, d: nat)
    requires x >= 1
    ensures x * d >= d
  {
  }

  /** Rounding an exact quotient to hundredths leaves it unchanged. */
  lemma RoundCentsExact(k: nat, d: nat)
    requires d > 0
    ensures RoundCents(k * d, d) == k as real
  {
    var n := k * d;
    assert 100 * n == (100 * k) * d;
    MultipleQuotient(100 * k, d);
    assert Cents(n, d) == 100 * k;
  }

  /** One attempt: the topic choice followed by the operand draws. */
  function Attempt(l: Level, m: SkillTable, d: Draw): (r: Draft)
    requires Complete(m)
    ensures r.question.op in LevelOps(l)
    ensures r.answer == Expected(r.question)
  {
    Compose(l, ChooseTopic(l, m, d), d)
  }

  /** Addition and multiplication draw both operands from the level's range and expect their sum or product. */
  lemma ComposeSumProduct(l: Level, t: Topic, d: Draw)
    requires t == Addition || t == Multiplication
    ensures var r := Compose(l, t, d);
      var rg := OperandRange(l, t);
      r.question.op == t
      && rg.lo <= r.question.a <= rg.hi && rg.lo <= r.question.b <= rg.hi
      && r.answer == (if t == Addition then r.question.a + r.question.b
                      else r.question.a * r.question.b) as real
  {
  }

  /** Subtraction never goes negative: the minuend is at least the subtrahend and both are in range. */
  lemma ComposeSubtractionNonNegative(l: Level, d: Draw)
    ensures var r := Compose(l, Subtraction, d);
      var rg := OperandRange(l, Subtraction);
      r.question.op == Subtraction
      && rg.lo <= r.question.b <= r.question.a <= rg.hi
      && r.answer == (r.question.a - r.question.b) as real
      && r.answer >= 0.0
  {
  }

  /** Below Extreme, division is exact: the dividend is the integer answer times the divisor. */
  lemma ComposeDivisionExact(l: Level, d: Draw)
    requires l != Extreme
    ensures var r := Compose(l, Division, d);
      var rg := OperandRange(l, Division);
      r.question.op == Division
      && 2 <= r.question.b <= 10
      && r.answer.Floor as real == r.answer
      && rg.lo <= r.answer.Floor <= rg.hi
      && r.question.a == r.answer.Floor * r.question.b
  {
  }

  /**
   * At Extreme the dividend is at most one more than a multiple of a range
   * value, and the stored answer is within half a hundredth of the true quotient.
   */
  lemma ComposeDivisionExtreme(d: Draw)
    ensures var r := Compose(Extreme, Division, d);
      r.question.op == Division
      && 2 <= r.question.b <= 10
      && 10 <= r.question.a <= 61
      && -0.005 <= r.answer - (r.question.a as real) / (r.question.b as real) <= 0.005
  {
    var a, k := Operand(Extreme, Division, d.y), RandInt(1, 3, d.factor);
    assert 10 <= a <= 20 && 1 <= k <= 3;
    assert 10 <= a * k <= 60 by {
      if k == 1 {} else if k == 2 {} else {}
    }
    var r := Compose(Extreme, Division, d);
    assert r.question.a == a * k + (if d.bump then 1 else 0);
    RoundCentsClose(r.question.a as nat, r.question.b as nat);
  }
}

=== FILE: report.dfy ===
/**
 * The end-of-session report (`result`): the mistake heatmap, the integer
 * mastery percentages of the attempted topics and the speed commentary.
 */
module Reporting {
  import opened Wrappers
  import opened Curriculum
  import opened Skills
  import opened Difficulty

  /** One `"{Topic}: {score}%"` entry of the mastery report. */
  datatype MasteryLine = MasteryLine(topic: Topic, percent: int)

  /** The speed messages, before and after the two accuracy overrides. */
  datatype SpeedNote = SpeedDemon | SteadyPace | Deliberate | SlowButAccurate | FastButCareless

  /** The payload of `result`, with the message split into its speed note and mastery lines. */
  datatype Report = Report(
    player: Option<string>,
    skills: SkillTable,
    heatmap: map<Topic, nat>,
    mastery: seq<MasteryLine>,
    speed: SpeedNote,
    avgTime: real)

  function Max0(x: real): (r: real)
    ensures r >= 0.0 && r >= x && (r == x || r == 0.0)
  {
    if x < 0.0 then 0.0 else x
  }

  /** The integer part of `n / t`, scaled back by `t`, brackets `n`. */
  lemma FloorScaled(n: real, t: real)
    requires t > 0.0
    ensures ((n / t).Floor as real) * t <= n < ((n / t).Floor as real + 1.0) * t
  {
    var x := n / t;
    var p := x.Floor as real;
    assert x * t == n;
    assert p <= x < p + 1.0;
    assert (x - p) * t >= 0.0;
    assert (x - p) * t == n - p * t;
    var q := p + 1.0;
    assert q - x > 0.0;
    assert (q - x) * t > 0.0;
    assert (q - x) * t == q * t - x * t;
    assert n < q * t;
    assert q == (n / t).Floor as real + 1.0;
  }

  /** Scaling the mistake-discounted score of a skill to a percentage. */
  lemma PercentScaled(c: nat, m: nat, t: nat)
    requires t > 0 && 2 * c >= m
    ensures Max0(c as real - (m as real) * 0.5) / (t as real) * 100.0
            == ((100 * c - 50 * m) as real) / (t as real)
  {
    var tr := t as real;
    var raw := c as real - (m as real) * 0.5;
    assert raw >= 0.0;
    assert raw * 100.0 == (100 * c - 50 * m) as real;
    assert raw / tr * 100.0 == (raw * 100.0) / tr;
  }

  /** The truncated percentage in integer terms. */
  lemma FloorBracket(n: int, t: nat)
    requires t > 0
    ensures var p := ((n as real) / (t as real)).Floor;
      p * t <= n < (p + 1) * t
  {
    var p := ((n as real) / (t as real)).Floor;
    FloorScaled(n as real, t as real);
    assert ((p * t) as real) == (p as real) * (t as real);
    assert (((p + 1) * t) as real) == (p as real + 1.0) * (t as real);
  }

  /** The truncated percentage of a score that is not floored at zero, in integer terms. */
  lemma PercentBracket(c: nat, m: nat, t: nat)
    requires t > 0
    ensures 2 * c >= m ==>
      var p := (Max0(c as real - (m as real) * 0.5) / (t as real) * 100.0).Floor;
      p * t <= 100 * c - 50 * m < (p + 1) * t
  {
    if 2 * c >= m {
      PercentScaled(c, m, t);
      FloorBracket(100 * c - 50 * m, t);
    }
  }

  /** The mistake-discounted score never exceeds 1 when there are no more correct answers than attempts. */
  lemma ScoreAtMostOne(c: nat, m: nat, t: nat)
    requires 0 < t
    ensures c <= t ==> Max0(c as real - (m as real) * 0.5) / (t as real) <= 1.0
  {
    if c <= t {
      var num := Max0(c as real - (m as real) * 0.5);
      assert (m as real) * 0.5 >= 0.0;
      assert num <= c as real <= t as real;
      QuotientAtMostOne(num, t as real);
    }
  }

  lemma QuotientAtMostOne(n: real, d: real)
    requires 0.0 <= n <= d && d > 0.0
    ensures n / d <= 1.0
  {
  }

  /**
   * `int(max(0, correct - mistakes * 0.5) / total * 100)`: a mistake costs
   * half a correct answer, the score is floored at zero and truncated to a
   * whole percentage.
   */
  function Mastery(s: SkillStat): (pct: int)
    requires s.total > 0
    ensures pct >= 0
    ensures s.correct <= s.total ==> pct <= 100
    ensures 2 * s.correct <= s.mistakes ==> pct == 0
    ensures 2 * s.correct >= s.mistakes ==>
      pct * s.total <= 100 * s.correct - 50 * s.mistakes < (pct + 1) * s.total
  {
    var score := Max0(s.correct as real - (s.mistakes as real) * 0.5) / (s.total as real);
    PercentBracket(s.correct, s.mistakes, s.total);
    ScoreAtMostOne(s.correct, s.mistakes, s.total);
    (score * 100.0).Floor
  }

  /** The example 8 correct, 2 mistakes, 10 attempts scores `(8 - 1) / 10` = 70%. */
  lemma MasteryExample()
    ensures Mastery(SkillStat(8, 10, 2)) == 70
  {
    assert (8.0 - 2.0 * 0.5) / 10.0 * 100.0 == 70.0;
  }

  /** No mistakes means full mastery; at least twice as many mistakes as correct answers means none. */
  lemma MasteryExtremes(s: SkillStat)
    requires s.total > 0 && Consistent(s)
    ensures s.mistakes == 0 ==> Mastery(s) == 100
    ensures 2 * s.correct <= s.mistakes ==> Mastery(s) == 0
  {
    if s.mistakes == 0 {
      assert (s.correct as real - 0.0) / (s.total as real) == 1.0;
    }
  }

  /**
   * The mastery lines for `topics`, in order: one per topic with at least
   * one attempt; untried topics are left out.
   */
  function MasteryLines(m: SkillTable, topics: seq<Topic>): (lines: seq<MasteryLine>)
    requires Complete(m)
    ensures |lines| <= |topics|
    ensures forall line :: line in lines ==>
      line.topic in topics && m[line.topic].total > 0 && line.percent == Mastery(m[line.topic])
    ensures forall t :: t in topics && m[t].total > 0 ==> MasteryLine(t, Mastery(m[t])) in lines
    decreases |topics|
  {
    if |topics| == 0 then []
    else
      var t := topics[|topics| - 1];
      var earlier := MasteryLines(m, topics[..|topics| - 1]);
      assert forall u :: u in topics ==> u in topics[..|topics| - 1] || u == t;
      if m[t].total > 0 then earlier + [MasteryLine(t, Mastery(m[t]))] else earlier
  }

  /**
   * Topics given in dictionary order yield their lines in that order, each
   * topic at most once.
   */
  lemma {:induction false} MasteryLinesOrdered(m: SkillTable, topics: seq<Topic>)
    requires Complete(m) && RankOrdered(topics)
    ensures LinesOrdered(MasteryLines(m, topics))
    decreases |topics|
  {
    if |topics| > 0 {
      var t := topics[|topics| - 1];
      var init := topics[..|topics| - 1];
      var earlier := MasteryLines(m, init);
      assert RankOrdered(init);
      MasteryLinesOrdered(m, init);
      if m[t].total > 0 {
        var lines := earlier + [MasteryLine(t, Mastery(m[t]))];
        forall line | line in earlier
          ensures TopicRank(line.topic) < TopicRank(t)
        {
          var k :| 0 <= k < |init| && init[k] == line.topic;
          assert topics[k] == line.topic;
        }
        forall i, j | 0 <= i < j < |lines|
          ensures TopicRank(lines[i].topic) < TopicRank(lines[j].topic)
        {
          if j == |earlier| {
            assert lines[i] in earlier;
          } else {
            assert lines[i] == earlier[i] && lines[j] == earlier[j];
          }
        }
        assert MasteryLines(m, topics) == lines;
      } else {
        assert MasteryLines(m, topics) == earlier;
      }
    }
  }

  /** Topics listed in strictly increasing `TopicRank`: in dictionary order, each at most once. */
  predicate RankOrdered(topics: seq<Topic>) {
    forall i, j :: 0 <= i < j < |topics| ==> TopicRank(topics[i]) < TopicRank(topics[j])
  }

  /** `TopicOrder` lists every topic once, by increasing rank. */
  lemma TopicOrderRanked()
    ensures RankOrdered(TopicOrder)
  {
    assert forall i :: 0 <= i < |TopicOrder| ==> TopicRank(TopicOrder[i]) == i;
  }

  /** Mastery lines in strictly increasing `TopicRank` of their topics, so no topic twice. */
  predicate LinesOrdered(lines: seq<MasteryLine>) {
    forall i, j :: 0 <= i < j < |lines| ==> TopicRank(lines[i].topic) < TopicRank(lines[j].topic)
  }

  /** The speed message chosen by the thresholds on the mean response time alone. */
  function ThresholdNote(avg: real): (note: SpeedNote)
    ensures note == SpeedDemon <==> avg < 5.0
    ensures note == SteadyPace <==> 5.0 <= avg < 10.0
    ensures note == Deliberate <==> avg >= 10.0
  {
    if avg < 5.0 then SpeedDemon
    else if avg < 10.0 then SteadyPace
    else Deliberate
  }

  /**
   * The speed message after the overrides: very accurate but slow learners
   * are told to speed up, fast but inaccurate ones to slow down.
   */
  function SpeedComment(accuracy: real, avg: real): (note: SpeedNote)
    ensures note == SlowButAccurate <==> (accuracy > 0.8 && avg > 15.0)
    ensures note == FastButCareless <==> (accuracy < 0.5 && avg < 5.0)
    ensures note == SlowButAccurate ==> ThresholdNote(avg) == Deliberate
    ensures note == FastButCareless ==> ThresholdNote(avg) == SpeedDemon
    ensures note != SlowButAccurate && note != FastButCareless ==> note == ThresholdNote(avg)
  {
    var note := ThresholdNote(avg);
    if accuracy > 0.8 && avg > 15.0 then SlowButAccurate
    else if accuracy < 0.5 && avg < 5.0 then FastButCareless
    else note
  }

  /** `total_acc`: the fraction of correct answers in the history, 0 when it is empty. */
  function OverallAccuracy(history: seq<bool>): (acc: real)
    ensures 0.0 <= acc <= 1.0
    ensures |history| > 0 ==> acc * (|history| as real) == CountTrue(history) as real
    ensures |history| == 0 ==> acc == 0.0
  {
    if |history| > 0 then
      var n, d := CountTrue(history) as real, |history| as real;
      var acc := n / d;
      assert acc * d == n;
      QuotientAtMostOne(n, d);
      acc
    else 0.0
  }

  /** `heatmap`: the mistakes of every topic, attempted or not. */
  function Heatmap(m: SkillTable): (h: map<Topic, nat>)
    requires Complete(m)
    ensures forall t: Topic :: t in h && h[t] == m[t].mistakes
  {
    map t | t in m :: m[t].mistakes
  }

  /** The whole `result` payload for a session's player, skills, history and response times. */
  function ReportOf(player: Option<string>, m: SkillTable, history: seq<bool>, times: seq<real>): (r: Report)
    requires Complete(m)
    ensures r.player == player && r.skills == m
    ensures |times| == 0 ==> r.avgTime == 0.0
    ensures |times| > 0 ==> r.avgTime * (|times| as real) == Sum(times)
    ensures r.mastery == MasteryLines(m, TopicOrder)
    ensures LinesOrdered(r.mastery)
    ensures r.speed == SpeedComment(OverallAccuracy(history), r.avgTime)
    ensures |r.mastery| <= |TopicOrder|
    ensures forall line :: line in r.mastery ==> m[line.topic].total > 0 && line.percent == Mastery(m[line.topic])
    ensures forall t: Topic :: t in r.heatmap
  {
    TopicOrderRanked();
    MasteryLinesOrdered(m, TopicOrder);
    var avg := MeanOr(times, 0.0);
    Report(player, m, Heatmap(m), MasteryLines(m, TopicOrder),
           SpeedComment(OverallAccuracy(history), avg), avg)
  }

  /**
   * A session with no graded answer and no response time has accuracy 0 and
   * mean time 0, so it is told it answers quickly but makes mistakes.
   */
  lemma EmptySessionCareless(player: Option<string>, m: SkillTable)
    requires Complete(m)
    ensures ReportOf(player, m, [], []).speed == FastButCareless
    ensures ReportOf(player, m, [], []).avgTime == 0.0
  {
  }

  /** The report lists exactly the attempted topics, and keeps every topic in the heatmap. */
  lemma ReportCoverage(player: Option<string>, m: SkillTable, history: seq<bool>, times: seq<real>, t: Topic)
    requires Complete(m)
    ensures var r := ReportOf(player, m, history, times);
      t in r.heatmap && r.heatmap[t] == m[t].mistakes
      && (m[t].total > 0 <==> exists line :: line in r.mastery && line.topic == t)
  {
    var r := ReportOf(player, m, history, times);
    assert t in TopicOrder by {
      match t
      case Addition => case Subtraction => case Multiplication => case Division =>
    }
    if m[t].total > 0 {
      assert MasteryLine(t, Mastery(m[t])) in r.mastery;
    }
  }
}

=== FILE: session.dfy ===
/**
 * The `SESSION` dictionary as the object it is in the program: one mutable
 * record whose fields the four request handlers update in place. Each
 * method performs its handler step by step and is proved to leave the
 * fields as the matching function of `Engine` says, so every property
 * proved there about `Started`, `Generate`, `Answered` and `ResultOf` holds
 * of the object too.
 */
module Sessions {
  import opened Wrappers
  import opened Curriculum
  import opened Skills
  import opened Difficulty
  import opened Questions
  import opened Grading
  import opened Reporting
  import opened Engine

  class Session {
    var player: Option<string>
    var mode: Mode
    var level: Level
    var startTime: Option<real>
    var duration: int
    var skills: SkillTable
    var current: Option<Pending>
    var asked: set<Question>
    var history: seq<bool>
    var errors: ErrorPatterns
    var times: seq<real>
    var prevWrong: bool

    /** The fields as a value. */
    function State(): SessionState
      reads this
    {
      SessionState(player, mode, level, startTime, duration, skills, current, asked,
                   history, errors, times, prevWrong)
    }

    /** The session invariant holds of the fields. */
    ghost predicate Valid()
      reads this
    {
      Wellformed(State())
    }

    /** The dictionary as the module defines it, before any request. */
    constructor()
      ensures State() == Initial()
      ensures Valid()
    {
      player := None;
      mode := Fixed;
      level := Easy;
      startTime := None;
      duration := 180;
      skills := FreshTable();
      current := None;
      asked := {};
      history := [];
      errors := NoErrors;
      times := [];
      prevWrong := false;
    }

    /**
     * `start_game`: the player is stored before the duration is converted,
     * so a failed conversion leaves only the new name behind; otherwise the
     * mode, level and start time are set and every log and counter reset.
     */
    method Start(name: Option<string>, durationField: DurationField, levelInput: Option<string>, now: real)
        returns (reply: StartReply)
      requires Valid()
      modifies this
      ensures (State(), reply) == Started(old(State()), name, durationField, levelInput, now)
      ensures Valid()
    {
      StartResets(State(), name, durationField, levelInput, now);
      player := Some(name.GetOr("Player"));
      if durationField.Unconvertible? {
        return StartFailed;
      }
      duration := if durationField.Seconds? then durationField.n else 180;
      var choice := LevelChoice(levelInput);
      mode := choice.0;
      level := choice.1;
      startTime := Some(now);
      ResetLogs();
      reply := StartedOk;
    }

    /** The resets of `start_game`: empty logs, no errors, no pending hint, and every topic untried. */
    method ResetLogs()
      modifies this
      ensures State() == old(State()).(asked := {}, history := [], errors := NoErrors, times := [],
                                       prevWrong := false, skills := FreshTable())
    {
      asked := {};
      history := [];
      errors := NoErrors;
      times := [];
      prevWrong := false;
      var table := skills;
      var i := 0;
      while i < |TopicOrder|
        invariant 0 <= i <= |TopicOrder|
        invariant forall j :: 0 <= j < i ==> TopicOrder[j] in table && table[TopicOrder[j]] == SkillStat(0, 0, 0)
      {
        table := table[TopicOrder[i] := SkillStat(0, 0, 0)];
        i := i + 1;
      }
      ResetTable(table);
      skills := table;
    }

    /**
     * `adaptive_difficulty()`: the promotion and demotion rule applied to
     * the last five answers, the trailing mistake streak and the mean
     * recent time.
     */
    method AdaptiveDifficulty() returns (next: Level)
      ensures next == NextLevel(level, history, times)
    {
      var recent := LastFive(history);
      var streak := MistakeStreak();
      next := Decide(level, |recent| >= 5, CountTrue(recent), streak, RecentMeanTime(times));
    }

    /** The loop of `adaptive_difficulty()` that walks the history backwards counting wrong answers. */
    method MistakeStreak() returns (streak: nat)
      ensures streak == TrailingMistakes(history)
    {
      streak := 0;
      var k := |history|;
      while k > 0 && !history[k - 1]
        invariant 0 <= k <= |history|
        invariant streak == |history| - k
        invariant forall j :: k <= j < |history| ==> !history[j]
      {
        streak := streak + 1;
        k := k - 1;
      }
      TrailingMistakesUnique(history, streak);
    }

    /**
     * `generate_question()`: up to ten attempts, each drawing from
     * `draws[i]`, until one draws a question not asked before.
     */
    method GenerateQuestion(draws: seq<Draw>, now: real) returns (out: Served)
      requires Valid() && |draws| == 10
      modifies this
      ensures (State(), out) == Generate(old(State()), draws, now)
      ensures Valid()
    {
      GenerateWellformed(State(), draws, now);
      var i := 0;
      out := Served(Question(0, Addition, 0), level, None);
      while i < 10
        invariant 0 <= i <= 10
        invariant skills == old(skills)
        invariant GenerateFrom(State(), draws, now, i, out) == Generate(old(State()), draws, now)
      {
        var done;
        out, done := TryDraw(draws[i], now);
        if done {
          return;
        }
        i := i + 1;
      }
    }

    /**
     * One pass of the retry loop: the level is decided (and stored in
     * adaptive mode), a topic and operands are drawn, and a question not
     * asked before is served.
     */
    method TryDraw(draw: Draw, now: real) returns (out: Served, done: bool)
      requires Complete(skills)
      modifies this
      ensures (State(), out, done) == Step(old(State()), draw, now)
    {
      var lvl := DrawLevel();
      var d := Attempt(lvl, skills, draw);
      if d.question !in asked {
        out := Serve(d, lvl, now);
        done := true;
      } else {
        out := Served(d.question, lvl, None);
        done := false;
      }
    }

    /** The level of one attempt: re-decided and stored in adaptive mode, the session's own otherwise. */
    method DrawLevel() returns (lvl: Level)
      modifies this
      ensures lvl == AttemptLevel(old(State()))
      ensures State() == old(State()).(level := lvl)
    {
      if mode == Adaptive {
        lvl := AdaptiveDifficulty();
        level := lvl;
      } else {
        lvl := level;
      }
    }

    /**
     * A question not asked before: it is recorded and made pending, and
     * served with a hint when the previous answer was wrong.
     */
    method Serve(d: Draft, lvl: Level, now: real) returns (out: Served)
      modifies this
      ensures State() == old(State()).(asked := old(asked) + {d.question},
                                       current := Some(Pending(d.question.op, d.answer, now)),
                                       prevWrong := false)
      ensures out == Served(d.question, lvl, if old(prevWrong) then Some(HintFor(d.question.op, lvl)) else None)
    {
      asked := asked + {d.question};
      current := Some(Pending(d.question.op, d.answer, now));
      var hint := None;
      if prevWrong {
        hint := Some(HintFor(d.question.op, lvl));
        prevWrong := false;
      }
      out := Served(d.question, lvl, hint);
    }

    /**
     * `answer`: the response time is logged before the submission is
     * parsed; a graded answer then updates the topic's counters, the history
     * and `prev_wrong`, and a wrong one the error patterns.
     */
    method Answer(sub: Submission, now: real) returns (reply: Reply)
      requires Valid()
      modifies this
      ensures (State(), reply) == Answered(old(State()), sub, now)
      ensures Valid()
    {
      AnswerWellformed(State(), sub, now);
      if current.None? {
        return NoActiveQuestion;
      }
      var q := current.value;
      if sub.Missing? || sub.Blank? {
        return EnterNumber;
      }
      times := times + [now - q.start];
      if sub.WrongType? {
        return ServerError;
      }
      reply := Score(q, sub);
    }

    /** The grading half of `answer`, once the response time is logged. */
    method Score(q: Pending, sub: Submission) returns (reply: Reply)
      requires Complete(skills)
      modifies this
      ensures (State(), reply) == Scored(old(State()), q, sub)
    {
      ghost var table := skills;
      var correct := sub.Numeral? && Graded(sub.value, q.answer);
      var userValue := if sub.Numeral? then sub.value else 0.0;
      var stat := skills[q.topic];
      skills := skills[q.topic := stat.(total := stat.total + 1)];
      history := history + [correct];
      if correct {
        skills := skills[q.topic := skills[q.topic].(correct := stat.correct + 1)];
        assert skills == table[q.topic := Tally(stat, true)];
        prevWrong := false;
        reply := Verdict(true, None, PacingDelay(level));
      } else {
        skills := skills[q.topic := skills[q.topic].(mistakes := stat.mistakes + 1)];
        assert skills == table[q.topic := Tally(stat, false)];
        var hint := HintFor(q.topic, level);
        prevWrong := true;
        if q.topic == Subtraction && sub.NotNumeric? {
          return ServerError;
        }
        errors := Classify(errors, q.topic, userValue - q.answer);
        reply := Verdict(false, Some(hint), PacingDelay(level));
      }
    }

    /**
     * `result()`: the mastery lines are built topic by topic in table
     * order; the heatmap, the mean time and the speed message come from
     * the counters and logs. Nothing is changed.
     */
    method Result() returns (r: Report)
      requires Complete(skills)
      ensures r == ResultOf(State())
    {
      var lines: seq<MasteryLine> := [];
      var i := 0;
      while i < |TopicOrder|
        invariant 0 <= i <= |TopicOrder|
        invariant lines == MasteryLines(skills, TopicOrder[..i])
      {
        var t := TopicOrder[i];
        assert TopicOrder[..i + 1][..i] == TopicOrder[..i];
        if skills[t].total > 0 {
          lines := lines + [MasteryLine(t, Mastery(skills[t]))];
        }
        i := i + 1;
      }
      assert TopicOrder[..i] == TopicOrder;
      var avg := MeanOr(times, 0.0);
      r := Report(player, skills, Heatmap(skills), lines, SpeedComment(OverallAccuracy(history), avg), avg);
    }
  }

  /** A table whose every topic was set to untried is the fresh table. */
  lemma ResetTable(m: SkillTable)
    requires forall j :: 0 <= j < |TopicOrder| ==> TopicOrder[j] in m && m[TopicOrder[j]] == SkillStat(0, 0, 0)
    ensures m == FreshTable()
  {
    var table := FreshTable();
    assert TopicOrder[0] == Addition && TopicOrder[1] == Subtraction;
    assert TopicOrder[2] == Multiplication && TopicOrder[3] == Division;
    CompleteByCases(m);
    forall t: Topic ensures m[t] == table[t] {
      match t
      case Addition =>
      case Subtraction =>
      case Multiplication =>
      case Division =>
    }
    assert m.Keys == table.Keys;
  }
}

=== FILE: skills.dfy ===
/**
 * The per-topic skill counters (`SESSION["skills"]`) and the accuracy
 * derived from them.
 */
module Skills {
  import opened Curriculum

  /** One entry of the skills dictionary: `{"correct", "total", "mistakes"}`. */
  datatype SkillStat = SkillStat(correct: nat, total: nat, mistakes: nat)

  /** The skills dictionary: one entry per topic. */
  type SkillTable = map<Topic, SkillStat>

  /** Every topic has an entry. */
  predicate Complete(m: SkillTable) {
    forall t: Topic :: t in m
  }

  /** The counters agree: every attempt was either correct or a mistake. */
  predicate Consistent(s: SkillStat) {
    s.total == s.correct + s.mistakes
  }

  /** Every topic's counters agree. */
  predicate AllConsistent(m: SkillTable)
    requires Complete(m)
  {
    Consistent(m[Addition]) && Consistent(m[Subtraction])
    && Consistent(m[Multiplication]) && Consistent(m[Division])
  }

  lemma CompleteByCases(m: SkillTable)
    requires Addition in m && Subtraction in m && Multiplication in m && Division in m
    ensures Complete(m)
  {
    forall t: Topic ensures t in m {
      match t
      case Addition =>
      case Subtraction =>
      case Multiplication =>
      case Division =>
    }
  }

  /** The table `start_game` installs: every topic untried. */
  function FreshTable(): (m: SkillTable)
    ensures Complete(m)
    ensures m[Addition] == SkillStat(0, 0, 0) && m[Subtraction] == SkillStat(0, 0, 0)
    ensures m[Multiplication] == SkillStat(0, 0, 0) && m[Division] == SkillStat(0, 0, 0)
  {
    var m := map[Addition := SkillStat(0, 0, 0), Subtraction := SkillStat(0, 0, 0),
                 Multiplication := SkillStat(0, 0, 0), Division := SkillStat(0, 0, 0)];
    CompleteByCases(m);
    m
  }

  /** Every counter of the fresh table agrees. */
  lemma FreshTableConsistent()
    ensures AllConsistent(FreshTable())
  {
    var m := FreshTable();
    assert Consistent(m[Addition]);
  }

  /**
   * `accuracy(skill)`: the fraction of attempts that were correct, and 0 for
   * a topic never attempted (so untried topics rank as weakest).
   */
  function Accuracy(s: SkillStat): (r: real)
    ensures s.total == 0 ==> r == 0.0
    ensures s.total > 0 ==> r * (s.total as real) == s.correct as real
    ensures s.correct <= s.total ==> 0.0 <= r <= 1.0
    ensures r == 0.0 <==> (s.total == 0 || s.correct == 0)
  {
    if s.total > 0 then s.correct as real / s.total as real else 0.0
  }

  /**
   * One graded attempt: one more attempt, of which exactly one of the
   * outcome counters records the outcome, so `total = correct + mistakes`
   * is kept.
   */
  function Tally(s: SkillStat, correct: bool): (r: SkillStat)
    ensures r.total == s.total + 1
    ensures r.correct + r.mistakes == s.correct + s.mistakes + 1
    ensures r.correct > s.correct <==> correct
    ensures r.mistakes > s.mistakes <==> !correct
    ensures r.correct >= s.correct && r.mistakes >= s.mistakes
    ensures Consistent(s) ==> Consistent(r)
  {
    if correct then SkillStat(s.correct + 1, s.total + 1, s.mistakes)
    else SkillStat(s.correct, s.total + 1, s.mistakes + 1)
  }

  /**
   * `sorted(allowed, key=accuracy)[0]`: the index of the weakest topic in
   * `topics`. Python's sort is stable, so among equally weak topics the one
   * listed first wins.
   */
  function WeakestIndex(topics: seq<Topic>, m: SkillTable): (i: nat)
    requires |topics| > 0 && Complete(m)
    ensures i < |topics|
    ensures forall j :: 0 <= j < |topics| ==> Accuracy(m[topics[i]]) <= Accuracy(m[topics[j]])
    ensures forall j :: 0 <= j < i ==> Accuracy(m[topics[i]]) < Accuracy(m[topics[j]])
    decreases |topics|
  {
    if |topics| == 1 then 0
    else
      var k := WeakestIndex(topics[..|topics| - 1], m);
      if Accuracy(m[topics[|topics| - 1]]) < Accuracy(m[topics[k]]) then |topics| - 1 else k
  }
}

=== FILE: wrappers.dfy ===
/** Optional values, for the dictionary entries and request fields that may be absent. */
module Wrappers {

  datatype Option<+T> = None | Some(value: T) {

    /** The value, or `default` when absent (the `dict.get(key, default)` idiom). */
    function GetOr(default: T): T {
      match this
      case Some(v) => v
      case None => default
    }
  }
}
